=== FILE: README.md ===
# LifeLine accident dispatch: a Dafny model

LifeLine is a Next.js accident-reporting application. A bystander reports an
accident from the reporting page, attaching photos, videos and a position.
The media go to Cloudinary through the upload route. The report route stores
the accident, finds at most two volunteers within 5000 m (closest first) and
appends the accident's id to each volunteer's `liveAccidents`. Volunteers sign
up through a four-step wizard and a registration route. Volunteers and
hospitals sign in through NextAuth's credentials provider, which sends each
role to its dashboard.

This project models that core:

- The three MongoDB collections are one `Db.Database` class. Its fields are
  the volunteers, hospitals and accidents in collection order, plus a ghost
  log of the writes. Saving a hospital is a method of the class; the API
  routes are module-level methods that take the database and change it.
- The zod and Mongoose schemas of the three documents and of the signup form
  are predicates, and functions that return the issues found.
- Hospital e-mails are normalised by a lower-case-then-trim function.
- NextAuth's `authorize` and `redirect` are functions. Its `jwt` and
  `session` callbacks are methods that update the token and session objects
  in place.
- The two wizard components (the signup page and the reusable multistep
  form) are classes. Their fields are the step counters, the location
  checkbox and the form values react-hook-form holds; `next` and `prev` are
  methods.
- The reporting page is a class over its state lists. Its form data is built
  by two loops, as in the page.
- The upload route is a function: parse, classify, upload each file in
  order.

What the code cannot decide itself is passed in as a parameter:

- the spherical distance;
- bcrypt's hash and compare;
- `crypto.randomBytes`;
- zod's e-mail pattern;
- whether a `save()` succeeds;
- Cloudinary's upload;
- `URL.createObjectURL`;
- the browser's position fix.

ObjectIds are natural numbers.

`src/app/api/reportAccident/route.ts` does not match the intent of its
authors: a report without a hospital can never be stored (see Findings).
`ReportAccident.Post` is the route as written, and its contract shows that
500. `ReportAccident.PostFixed` is the same route with corrected defaults,
and the model proves what it then accepts.

## Model

| member | source | states |
|---|---|---|
| Base.IsAstral | src/models/volunteer.ts:7 | (definition) a character outside the Basic Multilingual Plane, which UTF-16 stores as two code units |
| Base.Utf16Length | src/models/volunteer.ts:5-8 | JavaScript's `length`, which zod's `min` compares: between the number of characters and twice that, and zero only for the empty string |
| Base.Utf16LengthConcat | src/models/volunteer.ts:5-8 | the length of a concatenation is the sum of the lengths |
| Base.Utf16LengthOfBmp | src/models/volunteer.ts:5-8 | the length equals the number of characters exactly when no character is astral |
| Base.ThreeEmojiAreSixUnits | src/models/volunteer.ts:7 | three emoji are six code units |
| Base.Truthy | src/app/api/reportAccident/route.ts:12-24 | (definition) the JavaScript truthiness `\|\|` tests on an optional string: absent and empty are falsy |
| Base.Filter | src/app/reportingPage/page.tsx:128-129 | a URL is kept exactly when it occurs in the input and contains the word; never more elements than the input |
| Base.FilterConcat | src/app/reportingPage/page.tsx:128-129 | filtering a concatenation is the concatenation of the filtered parts, so kept URLs stay in upload order |
| Base.FilterSingleton | src/app/reportingPage/page.tsx:128-129 | one URL is kept exactly when it contains the word |
| Geo.At | src/app/reportingPage/page.tsx:119-122 | the point built from a fix is a Point whose first coordinate is the longitude and second the latitude |
| Geo.Origin | src/app/api/reportAccident/route.ts:17-20 | the fallback location is a Point at longitude 0, latitude 0 |
| Geo.IsPoint | src/models/accident.ts:11-14 | (definition) the zod location shape: the literal type `Point` and exactly two numbers |
| Geo.IsIndexable | src/models/accident.ts:43-63 | (definition) what the 2dsphere index takes: a Point with at least two coordinates, longitude in [-180, 180] and latitude in [-90, 90]; a third coordinate (altitude) is allowed, as section 3.1.1 of RFC 7946 permits |
| Geo.PointIndexableIff | src/models/accident.ts:43-63 | for a two-coordinate point, the index takes it exactly when the longitude and latitude are in range |
| AccidentSchema.ZodIssues | src/models/accident.ts:4-16 | one issue for a non-Point type, one for a coordinate count other than two, one for a status outside the four names, each present exactly when its check fails |
| AccidentSchema.ParseInput | src/models/accident.ts:4-16 | accepts exactly a two-coordinate Point with an absent or known status; an absent status becomes `Pending`; the optional fields pass through unchanged, absent or not; a rejection carries at least one issue |
| AccidentSchema.IsStatusName | src/models/accident.ts:54-58 | (definition) the four status names the enum allows |
| AccidentSchema.CastsToObjectId | src/models/accident.ts:39-42 | (definition) a string casts to an ObjectId when it is 24 hexadecimal digits or, with older BSON releases, 12 ASCII characters (12 UTF-8 bytes) |
| AccidentSchema.StoredAccepts | src/models/accident.ts:39-63 | (definition) `save()` accepts an accident whose location the 2dsphere index takes (an altitude allowed), whose status is one of the four names and whose hospital, if any, casts to an ObjectId |
| AccidentSchema.ParsedStatusIsStored | src/models/accident.ts:54-58 | whatever zod accepts passes the Mongoose status enum as well; only the location range and the hospital cast can still reject it |
| VolunteerSchema.ZodIssues | src/models/volunteer.ts:4-17 | one issue per failing check (empty username, bad e-mail, password under 6 UTF-16 code units, empty token, non-Point, not two coordinates), each present exactly when its check fails |
| VolunteerSchema.ParseInput | src/models/volunteer.ts:4-17 | accepts exactly the inputs meeting all six checks, the password length counted in UTF-16 code units; `verified` defaults to false; nothing else changes |
| VolunteerSchema.ThreeEmojiPasswordIsLongEnough | src/models/volunteer.ts:7 | a password of three emoji, three characters long, is not too short for `min(6)` |
| VolunteerSchema.Create | src/models/volunteer.ts:23-67 | the new document keeps the given fields, with `verified` false and the three accident lists empty |
| VolunteerSchema.StoredAccepts | src/models/volunteer.ts:23-54 | (definition) `save()` accepts a volunteer whose required strings are non-empty and whose location type is `Point` |
| VolunteerSchema.IndexedAccepts | src/models/volunteer.ts:44-54 | (definition) what `save()` accepts once `location` has the 2dsphere index `$near` needs: the schema's checks and a location the index takes |
| VolunteerSchema.CreatedPassesSchema | src/models/volunteer.ts:23-67 | a document built with a usable username, e-mail, password of at least 6 UTF-16 code units, token and Point passes the zod schema with `verified` false |
| HospitalSchema.ZodAccepts | src/models/hospital.ts:4-20 | (definition) the zod schema accepts an e-mail-shaped address and a two-coordinate Point; the other fields may be any string |
| HospitalSchema.ZodOnStoredHospital | src/models/hospital.ts:4-82 | of a document `save()` accepts, zod checks only the e-mail pattern and that the location has exactly two coordinates (`save()` also takes a point with an altitude) |
| HospitalSchema.Lower | src/models/hospital.ts:35 | same length; each ASCII capital becomes its lower-case letter and every other character is kept |
| HospitalSchema.TrimStart | src/models/hospital.ts:36 | a suffix of the input that is empty or starts with a non-space; every character removed is white space |
| HospitalSchema.TrimEnd | src/models/hospital.ts:36 | a prefix of the input that is empty or ends with a non-space; every character removed is white space |
| HospitalSchema.NormaliseEmail | src/models/hospital.ts:35-36 | (definition) the stored form of an e-mail: lower-cased, then trimmed |
| HospitalSchema.TrimIdempotent | src/models/hospital.ts:36 | trimming twice is trimming once |
| HospitalSchema.TrimKeepsLower | src/models/hospital.ts:35-36 | trimming a lower-case string leaves it lower case |
| HospitalSchema.NormaliseIdempotent | src/models/hospital.ts:31-37 | normalising a stored e-mail again changes nothing |
| HospitalSchema.NormalisedShape | src/models/hospital.ts:31-37 | a stored e-mail has no white space at either end and no upper-case ASCII letter |
| HospitalSchema.Create | src/models/hospital.ts:26-37 | the document takes the input's fields and the normalised e-mail |
| HospitalSchema.StoredAccepts | src/models/hospital.ts:26-82 | (definition) `save()`, before the unique index, accepts a hospital whose required strings (the e-mail after normalisation) and four address parts are non-empty and whose location the 2dsphere index takes (an altitude allowed) |
| HospitalSchema.IsSpace | src/models/hospital.ts:36 | (definition) the characters `trim` removes: ECMAScript white space and line terminators |
| HospitalSchema.Trim | src/models/hospital.ts:36 | (definition) `trim`: `TrimEnd` after `TrimStart`, whose contracts say only white space is removed from each end |
| Db.Database.Valid | src/models/hospital.ts:31-37 | (definition) every document has its own ObjectId, the unique index on the hospital e-mail holds, and every volunteer's location is one the assumed 2dsphere index takes |
| HospitalSchema.Project | src/models/hospital.ts:38-42 | a query result carries the password exactly when the query selects it; every other field, the two contact numbers and the location included, is the stored one |
| Db.Database.SaveHospital | src/models/hospital.ts:26-80 | fails validation on a missing required field or unindexable location; a second hospital with the same stored e-mail hits the unique index; only a successful save appends one document and one write; ids and e-mails stay unique |
| Auth.FindFirst | src/auth.ts:31-33 | `findOne`: the first document in collection order with the key, or none when no document has it |
| Auth.HospitalHashIsSelected | src/auth.ts:33 | the hash a hospital sign-in compares against is the password of the projection with `+password` selected, which a plain query leaves out |
| Auth.Lookup | src/auth.ts:29-34 | `volunteer` searches only volunteers by the e-mail as typed; `hospital` searches only hospitals by the normalised e-mail; any other role finds nobody |
| Auth.Complete | src/auth.ts:27 | (definition) the e-mail, password and role are all present and non-empty |
| Auth.Authorize | src/auth.ts:24-44 | a missing or empty field is `Invalid credentials`; otherwise success exactly when the lookup finds an account whose hash matches; every other failure is `Invalid email or password`; success carries the requested role and the account's id and e-mail |
| Auth.RolesAreSeparate | src/auth.ts:29-34 | a volunteer sign-in does not depend on the hospitals, and a hospital sign-in does not depend on the volunteers |
| Auth.HospitalLookupNormalises | src/auth.ts:33 | the hospital lookup gives the same answer for an e-mail and its normalised form |
| Auth.Redirect | src/auth.ts:51-55 | hospital to `baseUrl/hospital/dashboard`, volunteer to `baseUrl/volunteer/dashboard`, anything else to `baseUrl`; always under `baseUrl` |
| Auth.DashboardOfRole | src/auth.ts:51-55 | a known role goes to `baseUrl/<role>/dashboard` |
| Auth.SignedInUserReachesDashboard | src/auth.ts:24-55 | the `redirect` callback as written, given the user `authorize` returns, answers the dashboard of the role that user asked for |
| Auth.Jwt | src/auth.ts:56-62 | with a user, the token takes its id and role; without one the token is unchanged; the same token is returned |
| Auth.Session | src/auth.ts:63-69 | `session.user` takes the token's id and role |
| Auth.SignIn | src/auth.ts:24-69 | the result is `authorize`'s; after a success the token and the session hold the user's id and requested role; after a failure neither is touched |
| SignupSchema.HasError | src/lib/utils/signupSchema.ts:3-28 | (definition) a field has an error in the whole schema's result; `min` counts UTF-16 code units |
| SignupSchema.Accepts | src/lib/utils/signupSchema.ts:3-28 | (definition) the schema accepts when its set of errors is empty |
| SignupSchema.Errors | src/lib/utils/signupSchema.ts:3-28 | for each field, an error exactly when its own check fails, lengths in UTF-16 code units; the mismatch error lands on `confirmPassword` only when no required field is missing |
| SignupSchema.AcceptsExactly | src/lib/utils/signupSchema.ts:3-28 | the schema accepts exactly when every field check passes (the passwords at least 8 UTF-16 code units) and the two passwords are equal |
| SignupSchema.MismatchIsReportedOnConfirm | src/lib/utils/signupSchema.ts:25-28 | a form valid except for different passwords has exactly one error, on `confirmPassword` |
| SignupSchema.ClearedIsRejected | src/lib/utils/signupSchema.ts:4-24 | the emptied form has errors on exactly the five required fields |
| SignupSchema.Trigger | src/app/volunteer/signup/page.tsx:66-69 | (definition) `trigger(fields)` passes when none of the named fields has an error in the whole schema's result; `trigger(undefined)` passes when the schema accepts |
| SignupSchema.TriggerExtremes | src/app/volunteer/signup/page.tsx:66-69 | validating every field is validating the whole schema; validating no field always passes |
| SignupSchema.AfterSubmit | src/app/volunteer/signup/page.tsx:54-57 | an accepted form is handed on and emptied; a rejected one is left as it is |
| SignupSchema.SecondSubmitIsRejected | src/app/volunteer/signup/page.tsx:54-57 | after one submission, a second one is never accepted |
| SignupWizard.FieldsAt | src/app/volunteer/signup/page.tsx:66 | the step's field list, or none for the confirmation step |
| SignupWizard.StepsCoverSchema | src/app/volunteer/signup/page.tsx:14-34 | the schema accepts exactly when the checks of steps 0, 1 and 2 all pass |
| SignupWizard.SignupForm.constructor | src/app/volunteer/signup/page.tsx:37-39 | both counters at 0, the checkbox off, no values |
| SignupWizard.SignupForm.Input | src/app/volunteer/signup/page.tsx:43-52 | the values change and nothing else does |
| SignupWizard.SignupForm.EntryOffset | src/app/volunteer/signup/page.tsx:131 | the panel enters from `50%` exactly after a forward move, otherwise from `-50%` |
| SignupWizard.SignupForm.Next | src/app/volunteer/signup/page.tsx:59-79 | at step 1 with the checkbox on, moves to 2 without validating; a failed check changes nothing; a passed check below step 3 moves forward one and records the old step; at step 3 submits (the values are emptied when accepted) without moving; the counters stay in 0..3 and adjacent |
| SignupWizard.SignupForm.Prev | src/app/volunteer/signup/page.tsx:81-86 | at step 0 changes nothing; otherwise moves back one and records the old step; the panel then enters from `-50%` |
| SignupWizard.SignupForm.SetUseCurrentLocation | src/app/volunteer/signup/page.tsx:188-191 | the checkbox takes the new value, and a position is requested exactly when it is turned on |
| MultiStepForm.LateStepsCheckEverything | src/components/multistepform.tsx:11-24 | at steps 2 and 3 `next` passes exactly when the whole schema accepts |
| MultiStepForm.StepForm.constructor | src/components/multistepform.tsx:27-29 | both counters at 0, the checkbox off, no values |
| MultiStepForm.StepForm.Input | src/components/multistepform.tsx:35-44 | the values change and nothing else does |
| MultiStepForm.StepForm.Delta | src/components/multistepform.tsx:33 | the last move's direction: +1 after a forward move, -1 after a backward one, otherwise 0 |
| MultiStepForm.StepForm.EntryOffset | src/components/multistepform.tsx:124 | the panel enters from `-50%` exactly when `delta` is -1 |
| MultiStepForm.StepForm.Next | src/components/multistepform.tsx:53-66 | a failed check, or step 3, changes nothing; a passed check below step 3 moves forward one; leaving step 2 submits and empties the values |
| MultiStepForm.StepForm.Prev | src/components/multistepform.tsx:68-73 | at step 0 changes nothing; otherwise moves back one and records the old step |
| MultiStepForm.StepForm.ToggleLocation | src/components/multistepform.tsx:156-159 | the checkbox flips, and a position is requested exactly when it is turned on |
| SignupVolunteer.Hex | src/app/api/signup/volunteer/route.ts:19 | two characters per byte; what the characters are is stated by `HexRoundTrip` and `HexIsDigits` |
| SignupVolunteer.DigitValue | src/app/api/signup/volunteer/route.ts:19 | a character has a value exactly when it is a lower-case hex digit, and the value is below 16 |
| SignupVolunteer.HexRoundTrip | src/app/api/signup/volunteer/route.ts:19 | decoding the hex string gives back the random bytes |
| SignupVolunteer.HexIsDigits | src/app/api/signup/volunteer/route.ts:19 | every character of the encoding is a lower-case hex digit |
| SignupVolunteer.TokenShape | src/app/api/signup/volunteer/route.ts:19 | the token of 32 random bytes is 64 lower-case hex digits |
| SignupVolunteer.NewVolunteer | src/app/api/signup/volunteer/route.ts:18-27 | the new document has the request's e-mail, username and location, the password hashed with cost 12, a token that decodes to the random bytes, `verified` false and empty accident lists |
| SignupVolunteer.Registered | src/app/api/signup/volunteer/route.ts:11-16 | (definition) `findOne({ email })` finds a volunteer whose stored e-mail equals the request's exactly |
| SignupVolunteer.Post | src/app/api/signup/volunteer/route.ts:6-32 | an e-mail already registered (matched exactly) is 422 with the database unchanged; otherwise an absent password is 500 with nothing written (bcrypt rejects it); otherwise the new volunteer is appended with 201, or nothing changes when `save()` or the 2dsphere index rejects it; exactly one volunteer is added exactly on 201; unique e-mails stay unique |
| ReportAccident.WithDefaults | src/app/api/reportAccident/route.ts:12-24 | a missing or empty string takes its default; a missing list or location takes its default and a present one, even empty, is kept; the hospital placeholder is as written |
| ReportAccident.DescriptionKeptIffNonEmpty | src/app/api/reportAccident/route.ts:13 | the description survives exactly when it is a non-empty string |
| ReportAccident.DefaultsPassSchema | src/app/api/reportAccident/route.ts:12-24 | a request whose location and status (if given) are valid passes the accident schema after defaulting |
| ReportAccident.ReportWithoutHospitalFails | src/app/api/reportAccident/route.ts:21 | as written, a report without a hospital is never stored |
| ReportAccident.WithDefaultsFixed | src/app/api/reportAccident/route.ts:12-24 | the same defaults, except that a missing or empty hospital is left out |
| ReportAccident.FixedDefaultsStoredIff | src/app/api/reportAccident/route.ts:12-24 | with the fix, a report is stored exactly when its location is a Point whose first two coordinates are a valid longitude and latitude (an altitude may follow), its status (if given) is known and its hospital (if given) casts |
| ReportAccident.Distances | src/app/api/reportAccident/route.ts:26-33 | one distance per volunteer, in collection order |
| ReportAccident.IsNearest | src/app/api/reportAccident/route.ts:26-33 | (definition) what `$near` with `$maxDistance: 5000` and `limit(2)` answers over the documents scanned: at most two, distinct, in range, ascending, and nothing left out in range is closer |
| ReportAccident.Offer | src/app/api/reportAccident/route.ts:26-33 | the answer after one more document is scanned: at most two indices, none beyond that document |
| ReportAccident.NearQuery | src/app/api/reportAccident/route.ts:26-33 | at most two indices, all of documents already scanned |
| ReportAccident.OfferKeepsNearest | src/app/api/reportAccident/route.ts:26-33 | scanning one more document keeps the answer correct for the documents seen |
| ReportAccident.NearQueryIsNearest | src/app/api/reportAccident/route.ts:26-33 | at most two, distinct, each within 5000 m, ascending in distance; no unchosen document in range is closer than a chosen one; fewer than two chosen means no other document is in range |
| ReportAccident.IdsOf | src/app/api/reportAccident/route.ts:37 | the ids of the chosen volunteers, in query order |
| ReportAccident.AppendLive | src/app/api/reportAccident/route.ts:42-45 | the volunteers after the pushes, one per chosen index in order; the collection keeps its length |
| ReportAccident.AppendLiveChanges | src/app/api/reportAccident/route.ts:42-45 | each chosen volunteer gains the accident id at the end of `liveAccidents` and changes in no other field; every other volunteer is unchanged |
| ReportAccident.AppendLiveKeepsIds | src/app/api/reportAccident/route.ts:43 | pushing the id changes no volunteer's ObjectId |
| ReportAccident.AppendLiveKeepsLocations | src/app/api/reportAccident/route.ts:42-45 | pushing the id keeps every volunteer location one the 2dsphere index takes |
| ReportAccident.SavedPrefix | src/app/api/reportAccident/route.ts:42-45 | the number of saves that succeed before the first failure: all before it succeed, the one at it fails |
| ReportAccident.Store | src/app/api/reportAccident/route.ts:26-50 | once the defaults are filled in: an unusable location or a rejected accident is a 500 with nothing written; otherwise the accident is inserted first, with the chosen ids; then the chosen volunteers are updated in query order up to the first failed save; success exactly when every save succeeds, answering the stored ids; hospitals untouched; ids stay unique |
| ReportAccident.Post | src/app/api/reportAccident/route.ts:8-52 | the route as written: `Store` over the defaults of `WithDefaults`; a report without a hospital is a 500 that writes nothing |
| ReportAccident.PostFixed | src/app/api/reportAccident/route.ts:8-52 | the route with the defaults of `WithDefaultsFixed`: the same outcomes as `Store`, so a report without a hospital is stored when its location and status are valid |
| ReportAccident.LinkVolunteers | src/app/api/reportAccident/route.ts:42-45 | the loop saves exactly the volunteers before the first failure, each with the id appended, and logs one save per volunteer in that order |
| ReportAccident.PushAndSave | src/app/api/reportAccident/route.ts:43-44 | a successful save replaces the one volunteer by its updated copy and logs it; a failed one changes nothing |
| UploadFiles.GetAll | src/app/api/uploadFiles/route.ts:14 | exactly the values posted under the key |
| UploadFiles.GetAllConcat | src/app/api/uploadFiles/route.ts:14 | `getAll` over two batches of entries is the concatenation, so posting order is kept |
| UploadFiles.ParseFormData | src/app/api/uploadFiles/route.ts:12-16 | exactly the values posted under `file` |
| UploadFiles.ResourceTypeOf | src/app/api/uploadFiles/route.ts:30 | video exactly when the MIME type starts with `video/` |
| UploadFiles.UntypedFileIsImage | src/app/api/uploadFiles/route.ts:30 | a file with an empty type is uploaded as an image |
| UploadFiles.UploadAll | src/app/api/uploadFiles/route.ts:24-52 | URLs exactly when every value is a file whose upload to `accidents` succeeds; then one URL per value, each the URL of that value's upload |
| UploadFiles.Post | src/app/api/uploadFiles/route.ts:18-61 | success exactly when every upload succeeds, with one URL per received file in order; otherwise the 500 answer with no URLs |
| ReportingPage.PreviewUrls | src/app/reportingPage/page.tsx:28 | one object URL per selected file, in order |
| ReportingPage.SetSlot | src/app/reportingPage/page.tsx:61-65 | the slot takes the value and every other slot is kept; the length is kept for an index inside the array, and a write past the end grows it with holes |
| ReportingPage.Toggled | src/app/reportingPage/page.tsx:157-159 | the open item closes; any other item opens |
| ReportingPage.ToggleTwice | src/app/reportingPage/page.tsx:157-159 | toggling the same item twice restores the state exactly when it was closed or showing that item; from another open item it ends closed |
| ReportingPage.UploadEntries | src/app/reportingPage/page.tsx:73-84 | the images under `file`, then the videos under `file`, then `description` and `reporters` |
| ReportingPage.RouteReceivesImagesThenVideos | src/app/reportingPage/page.tsx:75-84 | the upload route receives exactly the images followed by the videos |
| ReportingPage.UploadKeepsOrder | src/app/reportingPage/page.tsx:88-98 | a successful upload answers one URL per picked file: first each image's own URL, then each video's |
| ReportingPage.ReportLocation | src/app/reportingPage/page.tsx:101-123 | the origin without a fix; with one, a Point with longitude first |
| ReportingPage.ReportData | src/app/reportingPage/page.tsx:125-132 | photos are the URLs containing `image` and videos those containing `video` (a URL with both is in both, one with neither is dropped); one reporter; no hospital or status |
| ReportingPage.ReportDataSplits | src/app/reportingPage/page.tsx:128-129 | sorting URLs batch by batch gives the same lists as sorting them at once |
| ReportingPage.PageReportFailsAsWritten | src/app/reportingPage/page.tsx:125-132 | as written, the report route stores no report this page sends |
| ReportingPage.PageReportStoredIff | src/app/reportingPage/page.tsx:125-132 | with the corrected defaults, a report from this page is stored exactly when its fix (if any) is a valid longitude and latitude |
| ReportingPage.ReportForm.constructor | src/app/reportingPage/page.tsx:10-19 | empty lists, texts and FAQ; four empty code slots |
| ReportingPage.ReportForm.HandleFileChange | src/app/reportingPage/page.tsx:24-30 | the images and their previews are appended, so both lists keep equal length; nothing else changes |
| ReportingPage.ReportForm.HandleVideoFileChange | src/app/reportingPage/page.tsx:32-38 | the same for videos |
| ReportingPage.ReportForm.HandleDescriptionChange | src/app/reportingPage/page.tsx:49-51 | only the description changes |
| ReportingPage.ReportForm.HandleEmailChange | src/app/reportingPage/page.tsx:67-69 | only the e-mail changes |
| ReportingPage.ReportForm.HandleOtpChange | src/app/reportingPage/page.tsx:61-65 | the code slots become `SetSlot` of the old ones; nothing else changes |
| ReportingPage.ReportForm.ToggleFaq | src/app/reportingPage/page.tsx:157-159 | the FAQ state becomes `Toggled` of the old one; nothing else changes |
| ReportingPage.ReportForm.UploadFormData | src/app/reportingPage/page.tsx:73-84 | the two loops and two appends build exactly `UploadEntries` |
| ReportingPage.ReportForm.Submit | src/app/reportingPage/page.tsx:71-132 | no report is sent exactly when the upload fails; otherwise the report is built from the returned URLs |

## Left out

- Google sign-in, the `pages` setting and the login page's own role-to-path choice are left out. They are OAuth wiring and UI, and the choice duplicates the `redirect` callback.
- Database connection, `console.log`, toasts, rendering, CSS and animation timing are left out. Only the sign of the entry offset is kept.
- Concurrency is not modelled: `Promise.all` runs the uploads concurrently, while `UploadFiles.UploadAll` runs them one after the other. React state updates are immediate assignments. Neither changes the results modelled here.
- The upload oracle is a function, so the same file always gets the same URL. Cloudinary's retries, streaming and `arrayBuffer` are not modelled.
- `handleLocation` (both wizards) and the page's `latitude`/`longitude` state are left out. They store a browser callback's result and nothing validates them. `SetUseCurrentLocation` and `ToggleLocation` only report whether a position is requested.
- `handleAddFiles`, `handleVerificationMethodChange` and `handlePhoneNumberChange` are left out. They click a hidden input or set state that nothing else reads.
- ReportingPage.ReportForm.HandleOtpChange: the index is a natural number. JavaScript would also accept a negative or fractional index, which sets a property rather than an array slot.
- ReportingPage.ReportForm.Submit: stops at the report request the page builds. The report route's answer is `ReportAccident.Post`. The page also sends `nearestVolunteers: []`; `ReportData` leaves it out because the route never reads it.
- Only the zod checks the handlers rely on are modelled. The routes never call the zod schemas of the three documents; they are modelled because they are the documents' contract.
- ReportAccident.NearQuery: the distance is a parameter, and MongoDB's floating-point spherical geometry is not modelled. When two volunteers are at the same distance, collection order decides, whereas MongoDB leaves that order open.
- `volunteer.ts` declares no 2dsphere index on `location`, and `$near` needs one. The model assumes the index exists, on both sides: the signup's save refuses a location the index cannot take, and `Db.Database.Valid` keeps every stored volunteer location indexable. A missing index would turn every report into a 500.
- Strings are sequences of Unicode scalar values. JavaScript lengths are recovered with `Base.Utf16Length`, but a lone surrogate, which a JavaScript string can hold, cannot be represented.
- SignupVolunteer.Post: the request's `email`, `username` and `location` are taken to be present and of the right type; only a missing password (a 500, because `bcrypt.hash` rejects it) is modelled.
- The `redirect` callback's `user` argument is modelled as written. NextAuth does not pass a user to this callback, so at run time every sign-in goes to `baseUrl`.
- SignupWizard.SignupForm.Next: at step 3 the page disables the button that calls `next`. The model still describes what `next` would do there, as it is written.
- The two wizards differ when `currentStep == previousStep`, which is the case only before the first move. The signup page then enters from `-50%` and the multistep form from `50%`. Both are modelled as written.
- Mongoose casting is modelled only for the accident's `hospital` field: 24 hex digits, or, for older BSON releases, 12 ASCII characters (a 12-byte UTF-8 string). `ObjectId` values elsewhere are abstract numbers.
- The volunteer collection has no unique index on `email`. Only the route's own check keeps e-mails unique, and two concurrent signups could both pass it; concurrency is not modelled.
- Timestamps (`createdAt`, `updatedAt`) are not modelled.
- HospitalSchema.Lower: folds only the ASCII capitals `A`-`Z`. JavaScript's `toLowerCase` folds every Unicode capital (`Ä` to `ä`), and some capitals change length (`İ` becomes two code units). Unicode case mapping is not modelled.
- Auth.Lookup: inherits that limit. A hospital e-mail typed with a non-ASCII capital finds the stored account in the program but not in the model.
- SignupVolunteer.Hex: its own contract gives only the length. The encoding itself is stated by its partner lemmas `HexRoundTrip` and `HexIsDigits`.
- The reporting page's `verificationMethod` and `phoneNumber` state is left out; nothing that is sent depends on it.

## Findings

| source | as written | input that shows it | evidently intended | confidence | as-written member | corrected member |
|---|---|---|---|---|---|---|
| src/app/api/reportAccident/route.ts:21 | a missing or empty `hospital` is replaced by the text `No nearby hospitals found`, stored in a field declared as an ObjectId reference (src/models/accident.ts:39-42); the text is 25 characters, so the cast fails, `save()` throws and the route answers 500 | any report without `hospital`, which includes every report the reporting page sends (it never sets one) | a report without a hospital is stored without one | high (not executed) | ReportAccident.Post, ReportAccident.ReportWithoutHospitalFails, ReportingPage.PageReportFailsAsWritten | ReportAccident.PostFixed, ReportAccident.WithDefaultsFixed, ReportAccident.FixedDefaultsStoredIff, ReportingPage.PageReportStoredIff |

=== FILE: accident.dfy ===
/** The Accident document: the zod schema that describes an accident report
    and the constraints the Mongoose schema enforces when one is saved. */
module AccidentSchema {
  import opened Base
  import opened Geo

  /** The four resolution states, spelled as the schema spells them. */
  const StatusNames: seq<string> := ["Pending", "In Progress", "Resolved", "Cancelled"]

  /** The status a report takes when none is given. */
  const DefaultStatus: string := "Pending"

  predicate IsStatusName(name: string) {
    name in StatusNames
  }

  /** An accident as the route builds it and as zod returns it (the
      `AccidentInput` type): everything but the location and the status may
      be absent. */
  datatype AccidentData = AccidentData(
    description: Option<string>,
    photos: Option<seq<string>>,
    videos: Option<seq<string>>,
    reporters: Option<seq<string>>,
    nearestVolunteers: Option<seq<Id>>,
    hospital: Option<string>,
    location: GeoPoint,
    status: string)

  /** The raw value handed to `accidentSchemaZod`: the status may be absent
      too, the default fills it in. */
  datatype AccidentInput = AccidentInput(
    description: Option<string>,
    photos: Option<seq<string>>,
    videos: Option<seq<string>>,
    reporters: Option<seq<string>>,
    nearestVolunteers: Option<seq<Id>>,
    hospital: Option<string>,
    location: GeoPoint,
    status: Option<string>)

  /** A saved Accident document: its ObjectId and its fields. */
  datatype Accident = Accident(id: Id, data: AccidentData)

  /** The issues zod reports, one per failing check. */
  datatype Issue = LocationNotPoint | NotTwoCoordinates | UnknownStatus

  function ZodIssues(a: AccidentInput): (r: set<Issue>)
    ensures LocationNotPoint in r <==> a.location.kind != "Point"
    ensures NotTwoCoordinates in r <==> |a.location.coordinates| != 2
    ensures UnknownStatus in r <==> a.status.Some? && !IsStatusName(a.status.value)
  {
    (if a.location.kind != "Point" then {LocationNotPoint} else {})
    + (if |a.location.coordinates| != 2 then {NotTwoCoordinates} else {})
    + (if a.status.Some? && !IsStatusName(a.status.value) then {UnknownStatus} else {})
  }

  /** `accidentSchemaZod.safeParse`: accepts exactly the inputs whose
      location is a two-coordinate Point and whose status, when given, is one
      of the four names; an absent status becomes `'Pending'`; every other
      field passes through, absent or not. */
  function ParseInput(a: AccidentInput): (r: Result<AccidentData, set<Issue>>)
    ensures r.Ok? <==> IsPoint(a.location) && (a.status.None? || IsStatusName(a.status.value))
    ensures r.Ok? ==> IsStatusName(r.value.status)
    ensures r.Ok? && a.status.None? ==> r.value.status == DefaultStatus
    ensures r.Ok? && a.status.Some? ==> r.value.status == a.status.value
    ensures r.Ok? ==> (r.value.location == a.location
      && r.value.description == a.description && r.value.photos == a.photos
      && r.value.videos == a.videos && r.value.reporters == a.reporters
      && r.value.nearestVolunteers == a.nearestVolunteers && r.value.hospital == a.hospital)
    ensures r.Err? ==> r.error != {}
  {
    var issues := ZodIssues(a);
    if issues != {} then Err(issues)
    else
      var status := if a.status.Some? then a.status.value else DefaultStatus;
      Ok(AccidentData(a.description, a.photos, a.videos, a.reporters,
                      a.nearestVolunteers, a.hospital, a.location, status))
  }

  /** Mongoose's ObjectId cast of a string: 24 hexadecimal digits, or (with
      older BSON releases) a 12-character string that is also 12 bytes in
      UTF-8, that is, one whose characters are all ASCII. */
  predicate CastsToObjectId(s: string) {
    (|s| == 24 && forall i :: 0 <= i < |s| ==> IsHexChar(s[i]))
    || (|s| == 12 && forall i :: 0 <= i < |s| ==> s[i] < 128 as char)
  }

  /** What `Accident.save()` lets through: the location type is the enum
      value `'Point'` and, because of the 2dsphere index, a valid GeoJSON
      point; the status is one of the enum values; a hospital reference, if
      any, casts to an ObjectId. */
  predicate StoredAccepts(a: AccidentData) {
    IsIndexable(a.location)
    && IsStatusName(a.status)
    && (a.hospital.None? || CastsToObjectId(a.hospital.value))
  }

  /** Whatever zod accepts, the enum check at save time accepts too: the two
      schemas agree on the status, so only the location range and the
      hospital cast can still reject a parsed record. */
  lemma ParsedStatusIsStored(a: AccidentInput)
    requires ParseInput(a).Ok?
    requires IsIndexable(a.location)
    requires a.hospital.None? || CastsToObjectId(a.hospital.value)
    ensures StoredAccepts(ParseInput(a).value)
  {
  }
}

=== FILE: auth.dfy ===
/** The NextAuth configuration: the credentials `authorize` function, and the
    `redirect`, `jwt` and `session` callbacks. */
module Auth {
  import opened Base
  import V = VolunteerSchema
  import H = HospitalSchema

  const VolunteerRole: string := "volunteer"
  const HospitalRole: string := "hospital"

  datatype Credentials = Credentials(email: Option<string>, password: Option<string>, role: Option<string>)

  /** The two errors `authorize` throws: `Invalid credentials` and
      `Invalid email or password`. */
  datatype AuthError = InvalidCredentials | InvalidEmailOrPassword

  /** What a lookup returns with `select("+password")`: the stored
      document's id, e-mail and password hash. */
  datatype Account = Account(id: Id, email: string, passwordHash: string)

  /** The user `authorize` returns: the account with the requested role. */
  datatype User = User(id: Id, email: string, passwordHash: string, role: string)

  /** `findOne`: the first document, in collection order, whose key equals
      `k`. */
  function FindFirst<T>(xs: seq<T>, key: T -> string, k: string): (r: Option<nat>)
    ensures r.Some? ==> r.value < |xs| && key(xs[r.value]) == k
    ensures r.Some? ==> forall j :: 0 <= j < r.value ==> key(xs[j]) != k
    ensures r.None? ==> forall j :: 0 <= j < |xs| ==> key(xs[j]) != k
  {
    if xs == [] then None
    else if key(xs[0]) == k then Some(0)
    else match FindFirst(xs[1..], key, k)
      case None => None
      case Some(i) => Some(i + 1)
  }

  /** The lookup for a role: `'volunteer'` searches only the volunteers
      with the e-mail as given, `'hospital'` only the hospitals with the
      e-mail run through the schema's lowercase and trim setters (Mongoose
      applies them to query filters too), and any other role finds
      nobody. */
  function Lookup(vols: seq<V.Volunteer>, hosps: seq<H.Hospital>, email: string, role: string): (r: Option<Account>)
    ensures role != VolunteerRole && role != HospitalRole ==> r.None?
    ensures role == VolunteerRole ==>
      (r.Some? <==> exists v :: v in vols && v.email == email)
      && (r.Some? ==> exists v :: v in vols && v.email == email && r.value == Account(v.id, v.email, v.password))
    ensures role == HospitalRole ==>
      (r.Some? <==> exists h :: h in hosps && h.email == H.NormaliseEmail(email))
      && (r.Some? ==> exists h :: h in hosps && h.email == H.NormaliseEmail(email)
                                 && r.value == Account(h.id, h.email, h.password))
  {
    if role == VolunteerRole then
      match FindFirst(vols, (v: V.Volunteer) => v.email, email)
      case None => None
      case Some(i) => Some(Account(vols[i].id, vols[i].email, vols[i].password))
    else if role == HospitalRole then
      match FindFirst(hosps, (h: H.Hospital) => h.email, H.NormaliseEmail(email))
      case None => None
      case Some(i) =>
        var view := H.Project(hosps[i], true);
        Some(Account(view.id, view.email, view.password.value))
    else None
  }

  /** The hash `authorize` compares against is there only because the
      query selects `+password`: it is the password of the hospital's
      projection with the field selected, which a plain query leaves out. */
  lemma HospitalHashIsSelected(vols: seq<V.Volunteer>, hosps: seq<H.Hospital>, email: string)
    ensures var r := Lookup(vols, hosps, email, HospitalRole);
      r.Some? ==> exists h :: h in hosps && h.email == H.NormaliseEmail(email)
                             && H.Project(h, true).password == Some(r.value.passwordHash)
                             && H.Project(h, false).password.None?
  {
  }

  predicate Complete(c: Credentials) {
    Truthy(c.email) && Truthy(c.password) && Truthy(c.role)
  }

  /** `authorize`. `compare` stands for bcrypt's comparison of a password
      with a stored hash. A missing or empty field is `Invalid credentials`;
      an unknown e-mail, an unknown role and a wrong password are all the
      same `Invalid email or password`; success carries the requested role. */
  function Authorize(vols: seq<V.Volunteer>, hosps: seq<H.Hospital>, c: Credentials,
                     compare: (string, string) -> bool): (r: Result<User, AuthError>)
    ensures !Complete(c) ==> r == Err(InvalidCredentials)
    ensures Complete(c) && r.Err? ==> r.error == InvalidEmailOrPassword
    ensures Complete(c) ==>
      var found := Lookup(vols, hosps, c.email.value, c.role.value);
      r.Ok? <==> found.Some? && compare(c.password.value, found.value.passwordHash)
    ensures r.Ok? ==> Complete(c) && r.value.role == c.role.value
    ensures r.Ok? ==> var found := Lookup(vols, hosps, c.email.value, c.role.value);
      found.Some? && r.value.id == found.value.id && r.value.email == found.value.email
  {
    if !Complete(c) then Err(InvalidCredentials)
    else match Lookup(vols, hosps, c.email.value, c.role.value)
      case None => Err(InvalidEmailOrPassword)
      case Some(acct) =>
        if !compare(c.password.value, acct.passwordHash) then Err(InvalidEmailOrPassword)
        else Ok(User(acct.id, acct.email, acct.passwordHash, c.role.value))
  }

  /** A volunteer sign-in never looks at the hospitals, and a hospital
      sign-in never looks at the volunteers. */
  lemma {:induction false} RolesAreSeparate(vols: seq<V.Volunteer>, vols': seq<V.Volunteer>,
                                            hosps: seq<H.Hospital>, hosps': seq<H.Hospital>,
                                            c: Credentials, compare: (string, string) -> bool)
    requires Complete(c)
    ensures c.role.value == VolunteerRole ==>
      Authorize(vols, hosps, c, compare) == Authorize(vols, hosps', c, compare)
    ensures c.role.value == HospitalRole ==>
      Authorize(vols, hosps, c, compare) == Authorize(vols', hosps, c, compare)
  {
  }

  /** The hospital lookup ignores case and surrounding white space in the
      e-mail typed at sign-in. */
  lemma {:induction false} HospitalLookupNormalises(vols: seq<V.Volunteer>, hosps: seq<H.Hospital>, email: string)
    ensures Lookup(vols, hosps, H.NormaliseEmail(email), HospitalRole) == Lookup(vols, hosps, email, HospitalRole)
  {
    H.NormaliseIdempotent(email);
  }

  // ----- callbacks -----

  /** The `redirect` callback: every target is under `baseUrl`. */
  function Redirect(baseUrl: string, user: Option<User>): (url: string)
    ensures StartsWith(url, baseUrl)
    ensures user.Some? && user.value.role == HospitalRole ==> url == baseUrl + "/hospital/dashboard"
    ensures user.Some? && user.value.role == VolunteerRole ==> url == baseUrl + "/volunteer/dashboard"
    ensures (user.None? || (user.value.role != HospitalRole && user.value.role != VolunteerRole)) ==> url == baseUrl
  {
    if user.Some? && user.value.role == HospitalRole then baseUrl + "/hospital/dashboard"
    else if user.Some? && user.value.role == VolunteerRole then baseUrl + "/volunteer/dashboard"
    else baseUrl
  }

  /** The dashboard of a known role is `baseUrl/<role>/dashboard`. */
  lemma DashboardOfRole(baseUrl: string, u: User)
    requires u.role == VolunteerRole || u.role == HospitalRole
    ensures Redirect(baseUrl, Some(u)) == baseUrl + "/" + u.role + "/dashboard"
  {
    if u.role == VolunteerRole {
      assert baseUrl + "/" + VolunteerRole + "/dashboard" == baseUrl + "/volunteer/dashboard";
    } else {
      assert baseUrl + "/" + HospitalRole + "/dashboard" == baseUrl + "/hospital/dashboard";
    }
  }

  /** The `redirect` callback as written, given the user `authorize`
      returns, answers the dashboard of the role that user asked for. */
  lemma {:induction false} SignedInUserReachesDashboard(vols: seq<V.Volunteer>, hosps: seq<H.Hospital>,
                                                        c: Credentials, compare: (string, string) -> bool,
                                                        baseUrl: string)
    requires Authorize(vols, hosps, c, compare).Ok?
    ensures var u := Authorize(vols, hosps, c, compare).value;
      Redirect(baseUrl, Some(u)) == baseUrl + "/" + c.role.value + "/dashboard"
  {
    var u := Authorize(vols, hosps, c, compare).value;
    assert Lookup(vols, hosps, c.email.value, c.role.value).Some?;
    DashboardOfRole(baseUrl, u);
  }

  /** The JWT the `jwt` callback edits in place. */
  class Token {
    var id: Option<Id>
    var role: Option<string>

    constructor ()
      ensures id.None? && role.None?
    {
      id, role := None, None;
    }
  }

  /** `session.user`, which the `session` callback edits in place. */
  class SessionUser {
    var id: Option<Id>
    var role: Option<string>

    constructor ()
      ensures id.None? && role.None?
    {
      id, role := None, None;
    }
  }

  /** The `jwt` callback: with a signed-in user the token takes the user's
      id and role; without one it is left as it is. */
  method Jwt(token: Token, user: Option<User>) returns (r: Token)
    modifies token
    ensures r == token
    ensures user.Some? ==> token.id == Some(user.value.id) && token.role == Some(user.value.role)
    ensures user.None? ==> token.id == old(token.id) && token.role == old(token.role)
  {
    if user.Some? {
      token.id := Some(user.value.id);
      token.role := Some(user.value.role);
    }
    r := token;
  }

  /** The `session` callback: `session.user` takes the token's id and
      role. */
  method Session(sessionUser: SessionUser, token: Token)
    modifies sessionUser
    ensures sessionUser.id == token.id && sessionUser.role == token.role
  {
    sessionUser.id := token.id;
    sessionUser.role := token.role;
  }

  /** Sign-in end to end: after `authorize` succeeds, the `jwt` and
      `session` callbacks hand the token and the session the user's id and
      role; after it fails, neither is touched. */
  method SignIn(vols: seq<V.Volunteer>, hosps: seq<H.Hospital>, c: Credentials,
                compare: (string, string) -> bool, token: Token, sessionUser: SessionUser)
    returns (r: Result<User, AuthError>)
    modifies token, sessionUser
    ensures r == Authorize(vols, hosps, c, compare)
    ensures r.Ok? ==> token.id == Some(r.value.id) && token.role == c.role
    ensures r.Ok? ==> sessionUser.id == Some(r.value.id) && sessionUser.role == c.role
    ensures r.Err? ==> unchanged(token, sessionUser)
  {
    r := Authorize(vols, hosps, c, compare);
    if r.Ok? {
      var t := Jwt(token, Some(r.value));
      Session(sessionUser, t);
    }
  }
}

=== FILE: base.dfy ===
/** Small helpers shared by the whole model: optional values, results,
    JavaScript truthiness of strings, and the string and list operations
    the handlers use (`startsWith`, `includes`, `filter`). */
module Base {

  datatype Option<+T> = None | Some(value: T)

  datatype Result<+T, +E> = Ok(value: T) | Err(error: E)

  /** An octet of a `Buffer`. */
  newtype Byte = b: int | 0 <= b < 256

  /** A MongoDB ObjectId, abstracted to a number. */
  type Id = nat

  /** JavaScript truthiness of an optional string: an absent value and the
      empty string are both falsy. */
  predicate Truthy(s: Option<string>) {
    s.Some? && s.value != ""
  }

  /** A character outside the Basic Multilingual Plane, which UTF-16
      stores as a surrogate pair. */
  predicate IsAstral(c: char) {
    c as int >= 0x1_0000
  }

  /** JavaScript's `s.length`, which zod's `min(n)` compares: the number
      of UTF-16 code units, two for an astral character and one for any
      other. */
  function Utf16Length(s: string): (n: nat)
    ensures |s| <= n <= 2 * |s|
    ensures n == 0 <==> s == []
  {
    if s == [] then 0
    else Utf16Length(s[..|s| - 1]) + (if IsAstral(s[|s| - 1]) then 2 else 1)
  }

  /** The length of a concatenation is the sum of the lengths. */
  lemma {:induction false} Utf16LengthConcat(s: string, t: string)
    ensures Utf16Length(s + t) == Utf16Length(s) + Utf16Length(t)
    decreases |t|
  {
    if t == [] {
      assert s + t == s;
    } else {
      assert (s + t)[..|s + t| - 1] == s + t[..|t| - 1];
      Utf16LengthConcat(s, t[..|t| - 1]);
    }
  }

  /** Without astral characters, code units and characters agree. */
  lemma {:induction false} Utf16LengthOfBmp(s: string)
    ensures (forall i :: 0 <= i < |s| ==> !IsAstral(s[i])) <==> Utf16Length(s) == |s|
  {
    if s != [] {
      Utf16LengthOfBmp(s[..|s| - 1]);
      if !IsAstral(s[|s| - 1]) {
        assert forall i :: 0 <= i < |s| - 1 ==> s[i] == s[..|s| - 1][i];
      }
    }
  }

  /** An emoji is two code units, so three of them make a string of
      length 6. */
  lemma ThreeEmojiAreSixUnits()
    ensures Utf16Length("\U{1F600}\U{1F600}\U{1F600}") == 6
  {
    assert "\U{1F600}\U{1F600}\U{1F600}"[..2] == "\U{1F600}\U{1F600}";
    assert "\U{1F600}\U{1F600}"[..1] == "\U{1F600}";
    assert "\U{1F600}"[..0] == "";
  }

  /** `s || fallback` for an optional string. */
  function OrDefault(s: Option<string>, fallback: string): string {
    if Truthy(s) then s.value else fallback
  }

  /** A hexadecimal digit in either case, as ObjectId parsing accepts. */
  predicate IsHexChar(c: char) {
    '0' <= c <= '9' || 'a' <= c <= 'f' || 'A' <= c <= 'F'
  }

  /** `s.startsWith(prefix)`. */
  predicate StartsWith(s: string, prefix: string) {
    |prefix| <= |s| && s[..|prefix|] == prefix
  }

  /** `sub` occurs in `s` starting at index `i`. */
  predicate OccursAt(s: string, sub: string, i: nat) {
    i + |sub| <= |s| && s[i..i + |sub|] == sub
  }

  /** `s.includes(sub)`. */
  predicate Contains(s: string, sub: string) {
    exists i: nat :: i <= |s| && OccursAt(s, sub, i)
  }

  /** `xs.filter(u => u.includes(sub))`: the elements of `xs` that contain
      `sub`, in their original order. */
  function Filter(xs: seq<string>, sub: string): (r: seq<string>)
    ensures |r| <= |xs|
    ensures forall u :: u in r <==> u in xs && Contains(u, sub)
  {
    if xs == [] then []
    else (if Contains(xs[0], sub) then [xs[0]] else []) + Filter(xs[1..], sub)
  }

  /** Filtering distributes over concatenation, so the kept elements keep
      their relative order. */
  lemma {:induction false} FilterConcat(xs: seq<string>, ys: seq<string>, sub: string)
    ensures Filter(xs + ys, sub) == Filter(xs, sub) + Filter(ys, sub)
  {
    if xs == [] {
      assert xs + ys == ys;
    } else {
      assert (xs + ys)[0] == xs[0];
      assert (xs + ys)[1..] == xs[1..] + ys;
      FilterConcat(xs[1..], ys, sub);
    }
  }

  /** Every element that contains `sub` is kept and every other is dropped,
      one element at a time. */
  lemma {:induction false} FilterSingleton(u: string, sub: string)
    ensures Filter([u], sub) == if Contains(u, sub) then [u] else []
  {
    assert [u][1..] == [];
  }
}

=== FILE: db.dfy ===
/** The MongoDB database the routes share: the three collections, each in
    natural (insertion) order, and a log of the writes made to them. */
module Db {
  import opened Base
  import opened Geo
  import A = AccidentSchema
  import V = VolunteerSchema
  import H = HospitalSchema

  /** One write to the database, in the order the routes issue them. */
  datatype Write =
    | InsertAccident(id: Id)
    | SaveVolunteer(id: Id)
    | InsertVolunteer(id: Id)
    | InsertHospital(id: Id)

  /** Outcome of a `save()` that may hit the unique e-mail index. */
  datatype SaveOutcome = Saved | ValidationFailed | DuplicateKey

  predicate UniqueVolunteerIds(vols: seq<V.Volunteer>) {
    forall i, j :: 0 <= i < j < |vols| ==> vols[i].id != vols[j].id
  }

  predicate UniqueAccidentIds(accs: seq<A.Accident>) {
    forall i, j :: 0 <= i < j < |accs| ==> accs[i].id != accs[j].id
  }

  /** The 2dsphere index on `Volunteer.location`, which `$near` needs,
      holds only locations it can index. */
  predicate IndexableLocations(vols: seq<V.Volunteer>) {
    forall v :: v in vols ==> IsIndexable(v.location)
  }

  /** Distinct ObjectIds, and the unique index on `Hospital.email`. */
  predicate UniqueHospitals(hs: seq<H.Hospital>) {
    forall i, j :: 0 <= i < j < |hs| ==> hs[i].id != hs[j].id && hs[i].email != hs[j].email
  }

  class Database {
    var volunteers: seq<V.Volunteer>
    var hospitals: seq<H.Hospital>
    var accidents: seq<A.Accident>
    ghost var writes: seq<Write>

    /** Every document has its own ObjectId, the unique index on
        `Hospital.email` holds, and every volunteer's location is one the
        2dsphere index takes. */
    ghost predicate Valid()
      reads this
    {
      UniqueVolunteerIds(volunteers) && UniqueAccidentIds(accidents) && UniqueHospitals(hospitals)
      && IndexableLocations(volunteers)
    }

    constructor ()
      ensures Valid()
      ensures volunteers == [] && hospitals == [] && accidents == [] && writes == []
    {
      volunteers, hospitals, accidents, writes := [], [], [], [];
    }

    function VolunteerIds(): set<Id>
      reads this
    {
      set v | v in volunteers :: v.id
    }

    function AccidentIds(): set<Id>
      reads this
    {
      set a | a in accidents :: a.id
    }

    function HospitalIds(): set<Id>
      reads this
    {
      set h | h in hospitals :: h.id
    }

    /** `new Hospital(input).save()`: the e-mail is normalised, the required
        fields are checked, and the unique index refuses a second hospital
        with the same stored e-mail. Only a successful save changes the
        collection, by one document at the end. */
    method SaveHospital(input: H.HospitalInput, id: Id) returns (r: SaveOutcome)
      requires Valid()
      requires id !in HospitalIds()
      modifies this
      ensures Valid()
      ensures volunteers == old(volunteers) && accidents == old(accidents)
      ensures var doc := H.Create(id, input);
        && (!H.StoredAccepts(doc) ==> r == ValidationFailed)
        && (H.StoredAccepts(doc) && (exists h :: h in old(hospitals) && h.email == doc.email) ==> r == DuplicateKey)
        && (r == Saved <==> H.StoredAccepts(doc) && forall h :: h in old(hospitals) ==> h.email != doc.email)
        && (r == Saved ==> hospitals == old(hospitals) + [doc] && writes == old(writes) + [InsertHospital(id)])
        && (r != Saved ==> hospitals == old(hospitals) && writes == old(writes))
    {
      var doc := H.Create(id, input);
      if !H.StoredAccepts(doc) {
        return ValidationFailed;
      }
      if exists h :: h in hospitals && h.email == doc.email {
        return DuplicateKey;
      }
      hospitals := hospitals + [doc];
      writes := writes + [InsertHospital(id)];
      r := Saved;
    }
  }
}

=== FILE: geo.dfy ===
/** GeoJSON points as the three document types store them:
    `{ type: 'Point', coordinates: [longitude, latitude] }`. */
module Geo {

  datatype GeoPoint = GeoPoint(kind: string, coordinates: seq<real>)

  /** What the zod schemas demand of a location: the literal type `'Point'`
      and exactly two numbers. */
  predicate IsPoint(p: GeoPoint) {
    p.kind == "Point" && |p.coordinates| == 2
  }

  function Longitude(p: GeoPoint): real
    requires IsPoint(p)
  {
    p.coordinates[0]
  }

  function Latitude(p: GeoPoint): real
    requires IsPoint(p)
  {
    p.coordinates[1]
  }

  /** A point built from a position fix, longitude first. */
  function At(longitude: real, latitude: real): (p: GeoPoint)
    ensures IsPoint(p) && Longitude(p) == longitude && Latitude(p) == latitude
  {
    GeoPoint("Point", [longitude, latitude])
  }

  /** The fallback location `[0, 0]` used by the report page and the report
      route. */
  function Origin(): (p: GeoPoint)
    ensures IsPoint(p) && Longitude(p) == 0.0 && Latitude(p) == 0.0
  {
    At(0.0, 0.0)
  }

  /** What MongoDB's 2dsphere index and the `$near` operator accept: a Point
      whose first coordinate, the longitude, lies in [-180, 180] and whose
      second, the latitude, lies in [-90, 90]. Further position elements,
      such as an altitude, are allowed (section 3.1.1 of RFC 7946); neither
      Mongoose's `[Number]` nor the index limits their number. */
  predicate IsIndexable(p: GeoPoint) {
    p.kind == "Point" && |p.coordinates| >= 2
    && -180.0 <= p.coordinates[0] <= 180.0
    && -90.0 <= p.coordinates[1] <= 90.0
  }

  /** A two-coordinate point is indexable exactly when its longitude and
      latitude are in range. */
  lemma PointIndexableIff(p: GeoPoint)
    requires IsPoint(p)
    ensures IsIndexable(p) <==> -180.0 <= Longitude(p) <= 180.0 && -90.0 <= Latitude(p) <= 90.0
  {
  }
}

=== FILE: hospital.dfy ===
/** The Hospital document: the zod schema for a hospital, the e-mail
    normalisation the Mongoose schema applies, and the projection that hides
    the password. */
module HospitalSchema {
  import opened Base
  import opened Geo

  datatype Address = Address(street: string, city: string, postalCode: string, country: string)

  /** The raw value handed to `hospitalSchemaZod`. */
  datatype HospitalInput = HospitalInput(
    name: string,
    email: string,
    password: string,
    address: Address,
    contactNumber: string,
    emergencyContactNumber: string,
    geoLocation: GeoPoint)

  /** `hospitalSchemaZod`: every field is a plain string except the e-mail,
      which must look like one (`isEmail`), and the location, a
      two-coordinate Point. */
  predicate ZodAccepts(h: HospitalInput, isEmail: string -> bool) {
    isEmail(h.email) && IsPoint(h.geoLocation)
  }

  // ----- e-mail normalisation: `lowercase: true`, then `trim: true` -----

  /** The characters `String.prototype.trim` removes: ECMAScript white
      space and line terminators. */
  predicate IsSpace(c: char) {
    c == ' ' || c == '\t' || c == '\n' || c == '\r' || c == '\U{000B}' || c == '\U{000C}'
    || c == '\U{00A0}' || c == '\U{1680}' || ('\U{2000}' <= c <= '\U{200A}')
    || c == '\U{2028}' || c == '\U{2029}' || c == '\U{202F}' || c == '\U{205F}'
    || c == '\U{3000}' || c == '\U{FEFF}'
  }

  function LowerChar(c: char): char {
    if 'A' <= c <= 'Z' then (c as int + 32) as char else c
  }

  /** `toLowerCase` on the ASCII letters; other letters are kept as they
      are. */
  function Lower(s: string): (r: string)
    ensures |r| == |s|
    ensures forall i :: 0 <= i < |s| ==> r[i] == LowerChar(s[i])
  {
    seq(|s|, i requires 0 <= i < |s| => LowerChar(s[i]))
  }

  /** Leading white space removed: what is left is a suffix of `s` that is
      empty or starts with a non-space, and every character removed is white
      space. */
  function TrimStart(s: string): (r: string)
    ensures |r| <= |s| && r == s[|s| - |r|..]
    ensures r == [] || !IsSpace(r[0])
    ensures forall i :: 0 <= i < |s| - |r| ==> IsSpace(s[i])
  {
    if |s| > 0 && IsSpace(s[0]) then TrimStart(s[1..]) else s
  }

  /** Trailing white space removed: what is left is a prefix of `s` that is
      empty or ends with a non-space, and every character removed is white
      space. */
  function TrimEnd(s: string): (r: string)
    ensures |r| <= |s| && r == s[..|r|]
    ensures r == [] || !IsSpace(r[|r| - 1])
    ensures forall i :: |r| <= i < |s| ==> IsSpace(s[i])
  {
    if |s| > 0 && IsSpace(s[|s| - 1]) then TrimEnd(s[..|s| - 1]) else s
  }

  function Trim(s: string): string {
    TrimEnd(TrimStart(s))
  }

  /** The stored form of an e-mail address. */
  function NormaliseEmail(s: string): string {
    Trim(Lower(s))
  }

  lemma TrimStartKeeps(s: string)
    requires s == [] || !IsSpace(s[0])
    ensures TrimStart(s) == s
  {
  }

  lemma TrimEndKeeps(s: string)
    requires s == [] || !IsSpace(s[|s| - 1])
    ensures TrimEnd(s) == s
  {
  }

  /** A string already in lower case is left alone by `Lower`. */
  lemma LowerKeeps(s: string)
    requires IsLowerCase(s)
    ensures Lower(s) == s
  {
  }

  /** Trimming twice is trimming once. */
  lemma {:induction false} TrimIdempotent(s: string)
    ensures Trim(Trim(s)) == Trim(s)
  {
    var u := TrimStart(s);
    var v := TrimEnd(u);
    assert v == [] || v[0] == u[0];
    TrimStartKeeps(v);
    TrimEndKeeps(v);
  }

  lemma LowerCharIdempotent(c: char)
    ensures LowerChar(LowerChar(c)) == LowerChar(c)
  {
  }

  /** Every character is already lower case. */
  predicate IsLowerCase(s: string) {
    forall i :: 0 <= i < |s| ==> LowerChar(s[i]) == s[i]
  }

  lemma LowerIsLower(s: string)
    ensures IsLowerCase(Lower(s))
  {
    forall i | 0 <= i < |s| ensures LowerChar(Lower(s)[i]) == Lower(s)[i] {
      LowerCharIdempotent(s[i]);
    }
  }

  lemma {:induction false} TrimStartKeepsLower(s: string)
    requires IsLowerCase(s)
    ensures IsLowerCase(TrimStart(s))
    decreases |s|
  {
    if |s| > 0 && IsSpace(s[0]) {
      assert forall i :: 0 <= i < |s| - 1 ==> s[1..][i] == s[i + 1];
      TrimStartKeepsLower(s[1..]);
    }
  }

  lemma {:induction false} TrimEndKeepsLower(s: string)
    requires IsLowerCase(s)
    ensures IsLowerCase(TrimEnd(s))
    decreases |s|
  {
    if |s| > 0 && IsSpace(s[|s| - 1]) {
      assert forall i :: 0 <= i < |s| - 1 ==> s[..|s| - 1][i] == s[i];
      TrimEndKeepsLower(s[..|s| - 1]);
    }
  }

  /** Trimming a lower-case string leaves a lower-case string. */
  lemma TrimKeepsLower(t: string)
    requires IsLowerCase(t)
    ensures IsLowerCase(Trim(t))
  {
    TrimStartKeepsLower(t);
    TrimEndKeepsLower(TrimStart(t));
  }

  /** The stored e-mail is a fixed point: normalising a stored address
      changes nothing, so saving a document twice stores the same e-mail. */
  lemma {:induction false} NormaliseIdempotent(s: string)
    ensures NormaliseEmail(NormaliseEmail(s)) == NormaliseEmail(s)
  {
    var t := Lower(s);
    var n := Trim(t);
    assert Lower(n) == n by {
      LowerIsLower(s);
      TrimKeepsLower(t);
      LowerKeeps(n);
    }
    assert Trim(n) == n by {
      TrimIdempotent(t);
    }
  }

  lemma LowerCharIsLower(c: char)
    ensures !('A' <= LowerChar(c) <= 'Z')
  {
  }

  /** A trimmed string has no white space at either end. */
  lemma TrimEnds(t: string)
    ensures Trim(t) == [] || (!IsSpace(Trim(t)[0]) && !IsSpace(Trim(t)[|Trim(t)| - 1]))
  {
    var a := TrimStart(t);
    var n := TrimEnd(a);
    assert n == [] || n[0] == a[0];
  }

  /** A normalised address has no white space at either end and no
      upper-case ASCII letter. */
  lemma NormalisedShape(s: string)
    ensures var n := NormaliseEmail(s);
      && (n == [] || (!IsSpace(n[0]) && !IsSpace(n[|n| - 1])))
      && forall i :: 0 <= i < |n| ==> !('A' <= n[i] <= 'Z')
  {
    var n := NormaliseEmail(s);
    TrimEnds(Lower(s));
    assert IsLowerCase(n) by {
      LowerIsLower(s);
      TrimKeepsLower(Lower(s));
    }
    forall i | 0 <= i < |n| ensures !('A' <= n[i] <= 'Z') {
      LowerCharIsLower(n[i]);
    }
  }

  // ----- the stored document -----

  /** A saved Hospital document. */
  datatype Hospital = Hospital(
    id: Id,
    name: string,
    email: string,
    password: string,
    address: Address,
    contactNumber: string,
    emergencyContactNumber: string,
    geoLocation: GeoPoint)

  /** `new Hospital(h)`: the e-mail setters run as the document is built. */
  function Create(id: Id, h: HospitalInput): (r: Hospital)
    ensures r.email == NormaliseEmail(h.email)
    ensures r.id == id && r.name == h.name && r.password == h.password && r.address == h.address
    ensures r.contactNumber == h.contactNumber && r.emergencyContactNumber == h.emergencyContactNumber
    ensures r.geoLocation == h.geoLocation
  {
    Hospital(id, h.name, NormaliseEmail(h.email), h.password, h.address,
             h.contactNumber, h.emergencyContactNumber, h.geoLocation)
  }

  /** What `save()` lets through, before the unique index is consulted: every
      required string non-empty (the e-mail after normalisation), all four
      address parts present, and a location the 2dsphere index accepts. */
  predicate StoredAccepts(h: Hospital) {
    h.name != "" && h.email != "" && h.password != ""
    && h.address.street != "" && h.address.city != ""
    && h.address.postalCode != "" && h.address.country != ""
    && h.contactNumber != "" && h.emergencyContactNumber != ""
    && IsIndexable(h.geoLocation)
  }

  /** The two validation layers: of a document `save()` accepts, the zod
      schema checks only two things more, the e-mail pattern and that the
      location has exactly two coordinates (`save()` also takes an
      altitude). */
  lemma ZodOnStoredHospital(id: Id, h: HospitalInput, isEmail: string -> bool)
    requires StoredAccepts(Create(id, h))
    ensures ZodAccepts(h, isEmail) <==> isEmail(h.email) && |h.geoLocation.coordinates| == 2
  {
  }

  /** A hospital as a query returns it. */
  datatype HospitalView = HospitalView(
    id: Id,
    name: string,
    email: string,
    password: Option<string>,
    address: Address,
    contactNumber: string,
    emergencyContactNumber: string,
    geoLocation: GeoPoint)

  /** A query result: `select: false` leaves the password out unless the
      query asks for it with `select("+password")`. */
  function Project(h: Hospital, selectPassword: bool): (r: HospitalView)
    ensures r.password.Some? <==> selectPassword
    ensures r.password.Some? ==> r.password.value == h.password
    ensures r.id == h.id && r.email == h.email && r.name == h.name && r.address == h.address
    ensures r.contactNumber == h.contactNumber && r.emergencyContactNumber == h.emergencyContactNumber
    ensures r.geoLocation == h.geoLocation
  {
    HospitalView(h.id, h.name, h.email, if selectPassword then Some(h.password) else None,
                 h.address, h.contactNumber, h.emergencyContactNumber, h.geoLocation)
  }
}

=== FILE: multistep_form.dfy ===
/** The reusable multistep form component: the same four steps, but the
    password and confirmation steps name no fields (so `next` validates the
    whole form there), submission happens when leaving the password step,
    and the location checkbox toggles. */
module MultiStepForm {
  import opened Base
  import opened SignupSchema

  /** `steps.length - 1`. */
  const LastStep: nat := 3

  /** `steps[i].fields`, undefined for the last two steps. */
  const StepFields: seq<Option<set<Field>>> := [
    Some({FirstName, LastName, Email}),
    Some({Country, State, City, Street, Zip}),
    None,
    None
  ]

  /** From the password step on, `next` checks the whole schema. */
  lemma LateStepsCheckEverything(i: nat, v: FormValues, isEmail: string -> bool)
    requires LastStep - 1 <= i <= LastStep
    ensures Trigger(StepFields[i], v, isEmail) <==> Accepts(v, isEmail)
  {
  }

  class StepForm {
    var currentStep: nat
    var previousStep: nat
    var useCurrentLocation: bool
    var values: FormValues

    /** Both counters are step indexes, and they differ by at most one. */
    ghost predicate Valid()
      reads this
    {
      currentStep <= LastStep && previousStep <= LastStep
      && currentStep <= previousStep + 1 && previousStep <= currentStep + 1
    }

    constructor ()
      ensures Valid()
      ensures currentStep == 0 && previousStep == 0 && !useCurrentLocation && values == Cleared
    {
      currentStep, previousStep, useCurrentLocation, values := 0, 0, false, Cleared;
    }

    /** Typing into the registered inputs. */
    method Input(v: FormValues)
      requires Valid()
      modifies this
      ensures Valid()
      ensures values == v
      ensures currentStep == old(currentStep) && previousStep == old(previousStep)
      ensures useCurrentLocation == old(useCurrentLocation)
    {
      values := v;
    }

    /** `delta`: the direction of the last move. */
    function Delta(): (d: int)
      requires Valid()
      reads this
      ensures -1 <= d <= 1
      ensures d == 1 <==> previousStep < currentStep
      ensures d == -1 <==> currentStep < previousStep
    {
      currentStep - previousStep
    }

    /** The horizontal offset a step's panel enters from: from the left only
        after a move back. */
    function EntryOffset(): (x: string)
      requires Valid()
      reads this
      ensures x == "-50%" <==> Delta() == -1
      ensures x == "50%" || x == "-50%"
    {
      if Delta() >= 0 then "50%" else "-50%"
    }

    /** `next`. Returns whether `processForm` ran. */
    method Next(isEmail: string -> bool) returns (submitted: bool)
      requires Valid()
      modifies this
      ensures Valid()
      ensures useCurrentLocation == old(useCurrentLocation)
      ensures var passed := Trigger(StepFields[old(currentStep)], old(values), isEmail);
        && (!passed || old(currentStep) == LastStep ==>
              currentStep == old(currentStep) && previousStep == old(previousStep)
              && values == old(values) && !submitted)
        && (passed && old(currentStep) < LastStep ==>
              currentStep == old(currentStep) + 1 && previousStep == old(currentStep))
        && (passed && old(currentStep) == LastStep - 1 ==>
              submitted && values == Cleared)
        && (passed && old(currentStep) < LastStep - 1 ==>
              values == old(values) && !submitted)
      ensures currentStep == old(currentStep) + 1 ==> EntryOffset() == "50%"
    {
      var fields := StepFields[currentStep];
      var output := Trigger(fields, values, isEmail);
      if !output {
        return false;
      }
      submitted := false;
      if currentStep < LastStep {
        if currentStep == LastStep - 1 {
          submitted := Accepts(values, isEmail);
          values := AfterSubmit(values, isEmail);
        }
        previousStep := currentStep;
        currentStep := currentStep + 1;
      }
    }

    /** `prev`. */
    method Prev()
      requires Valid()
      modifies this
      ensures Valid()
      ensures old(currentStep) == 0 ==> currentStep == 0 && previousStep == old(previousStep)
      ensures old(currentStep) > 0 ==> currentStep == old(currentStep) - 1 && previousStep == old(currentStep)
      ensures values == old(values) && useCurrentLocation == old(useCurrentLocation)
      ensures old(currentStep) > 0 ==> EntryOffset() == "-50%"
    {
      if currentStep > 0 {
        previousStep := currentStep;
        currentStep := currentStep - 1;
      }
    }

    /** The location checkbox's `onChange`. Returns whether a position is
        requested from the browser: only when the box is being turned on. */
    method ToggleLocation() returns (requestPosition: bool)
      requires Valid()
      modifies this
      ensures Valid()
      ensures useCurrentLocation == !old(useCurrentLocation)
      ensures requestPosition == useCurrentLocation
      ensures currentStep == old(currentStep) && previousStep == old(previousStep) && values == old(values)
    {
      requestPosition := !useCurrentLocation;
      useCurrentLocation := !useCurrentLocation;
    }
  }
}

=== FILE: report_accident.dfy ===
/** `POST /api/reportAccident`: fill in defaults, find at most two volunteers
    within 5000 m (closest first), save the accident with their ids, then
    append the accident's id to each of those volunteers' `liveAccidents`. */
module ReportAccident {
  import opened Base
  import opened Geo
  import A = AccidentSchema
  import V = VolunteerSchema
  import opened Db

  /** `$maxDistance`, in metres. */
  const MaxDistance: real := 5000.0
  /** `.limit(2)`. */
  const MatchLimit: nat := 2

  const DefaultDescription: string := "No description provided"
  const DefaultReporter: string := "default@example.com"
  const DefaultHospital: string := "No nearby hospitals found"

  /** The JSON body of the request; any field may be missing. */
  datatype ReportRequest = ReportRequest(
    description: Option<string>,
    reporters: Option<seq<string>>,
    photos: Option<seq<string>>,
    videos: Option<seq<string>>,
    location: Option<GeoPoint>,
    hospital: Option<string>,
    status: Option<string>)

  /** The JSON response: the ids of the matched volunteers, or status 500
      with `'Failed to report accident'`. */
  datatype ReportResponse = Reported(nearestVolunteers: seq<Id>) | Failed

  // ----- default filling -----

  /** `accidentData`: JavaScript `||` replaces a missing or empty string by
      its default, and a missing list or location by its default; a list
      that is present is kept even when it is empty, because `[]` is truthy.
      `nearestVolunteers` starts empty. */
  function WithDefaults(req: ReportRequest): (d: A.AccidentData)
    ensures d.description == Some(if Truthy(req.description) then req.description.value else DefaultDescription)
    ensures d.reporters == Some(if req.reporters.Some? then req.reporters.value else [DefaultReporter])
    ensures d.photos == Some(if req.photos.Some? then req.photos.value else [])
    ensures d.videos == Some(if req.videos.Some? then req.videos.value else [])
    ensures d.location == if req.location.Some? then req.location.value else Origin()
    ensures d.hospital == Some(if Truthy(req.hospital) then req.hospital.value else DefaultHospital)
    ensures d.status == if Truthy(req.status) then req.status.value else A.DefaultStatus
    ensures d.nearestVolunteers == Some([])
  {
    A.AccidentData(
      Some(OrDefault(req.description, DefaultDescription)),
      Some(if req.photos.Some? then req.photos.value else []),
      Some(if req.videos.Some? then req.videos.value else []),
      Some(if req.reporters.Some? then req.reporters.value else [DefaultReporter]),
      Some([]),
      Some(OrDefault(req.hospital, DefaultHospital)),
      if req.location.Some? then req.location.value else Origin(),
      OrDefault(req.status, A.DefaultStatus))
  }

  /** A description survives defaulting exactly when it is a non-empty
      string. */
  lemma DescriptionKeptIffNonEmpty(req: ReportRequest)
    ensures WithDefaults(req).description == req.description
        <==> req.description.Some? && req.description.value != ""
  {
  }

  /** A request that leaves out the location, status and description still
      passes the accident schema: the defaults are themselves valid. */
  lemma DefaultsPassSchema(req: ReportRequest)
    requires req.location.None? || IsPoint(req.location.value)
    requires !Truthy(req.status) || A.IsStatusName(req.status.value)
    ensures var d := WithDefaults(req);
      A.ParseInput(A.AccidentInput(d.description, d.photos, d.videos, d.reporters,
                                   d.nearestVolunteers, d.hospital, d.location, Some(d.status))).Ok?
  {
  }

  /** As written, a report without a hospital stores the placeholder text
      in `hospital`, which is declared an ObjectId reference. The text is 25
      characters long, so it never casts, and the save fails. */
  lemma ReportWithoutHospitalFails(req: ReportRequest, ids: seq<Id>)
    requires !Truthy(req.hospital)
    ensures !A.StoredAccepts(WithDefaults(req).(nearestVolunteers := Some(ids)))
  {
    assert |DefaultHospital| == 25;
  }

  /** The default filling with a missing or empty hospital left out of the
      document instead of replaced by the placeholder text; every other
      field is defaulted as before. */
  function WithDefaultsFixed(req: ReportRequest): (d: A.AccidentData)
    ensures d.hospital == if Truthy(req.hospital) then req.hospital else None
    ensures d == WithDefaults(req).(hospital := d.hospital)
  {
    WithDefaults(req).(hospital := if Truthy(req.hospital) then req.hospital else None)
  }

  /** With the fix, a report is stored exactly when its location is a valid
      GeoJSON point, its status (if given) is one of the four, and its
      hospital (if given) is an ObjectId; leaving the hospital out no longer
      fails. */
  lemma FixedDefaultsStoredIff(req: ReportRequest, ids: seq<Id>)
    ensures var d := WithDefaultsFixed(req);
      A.StoredAccepts(d.(nearestVolunteers := Some(ids))) <==>
        && IsIndexable(d.location)
        && (!Truthy(req.status) || A.IsStatusName(req.status.value))
        && (!Truthy(req.hospital) || A.CastsToObjectId(req.hospital.value))
  {
    assert A.IsStatusName(A.DefaultStatus);
  }

  // ----- the `$near` query -----

  /** The distance from the accident to each volunteer, in collection order;
      `dist` stands for MongoDB's spherical distance. */
  function Distances(vols: seq<V.Volunteer>, dist: (GeoPoint, GeoPoint) -> real, at: GeoPoint): (ds: seq<real>)
    ensures |ds| == |vols|
    ensures forall i :: 0 <= i < |vols| ==> ds[i] == dist(at, vols[i].location)
  {
    seq(|vols|, i requires 0 <= i < |vols| => dist(at, vols[i].location))
  }

  /** The query's answer over the first `n` documents: at most two indices,
      distinct, within range, in ascending distance, and no other document in
      range is strictly closer than a chosen one; a document in range is
      left out only when two are already chosen. */
  predicate IsNearest(ds: seq<real>, sel: seq<nat>, n: nat)
    requires n <= |ds|
  {
    && |sel| <= MatchLimit
    && (forall k :: 0 <= k < |sel| ==> sel[k] < n && ds[sel[k]] <= MaxDistance)
    && (forall k, l :: 0 <= k < l < |sel| ==> sel[k] != sel[l] && ds[sel[k]] <= ds[sel[l]])
    && (forall j :: 0 <= j < n && j !in sel && ds[j] <= MaxDistance ==>
          |sel| == MatchLimit && forall k :: 0 <= k < |sel| ==> ds[sel[k]] <= ds[j])
  }

  /** Offer document `i` to the current answer `sel`. Documents at equal
      distance keep collection order (MongoDB leaves their order open). */
  function Offer(ds: seq<real>, sel: seq<nat>, i: nat): (r: seq<nat>)
    requires i < |ds|
    requires |sel| <= MatchLimit
    requires forall k :: 0 <= k < |sel| ==> sel[k] < i
    ensures |r| <= MatchLimit
    ensures forall k :: 0 <= k < |r| ==> r[k] <= i
  {
    if ds[i] > MaxDistance then sel
    else if |sel| == 0 then [i]
    else if ds[i] < ds[sel[0]] then [i, sel[0]]
    else if |sel| == 1 then [sel[0], i]
    else if ds[i] < ds[sel[1]] then [sel[0], i]
    else sel
  }

  /** `Volunteer.find({ location: { $near: ..., $maxDistance: 5000 } }).limit(2)`
      over the first `n` documents, as indices into the collection. */
  function NearQuery(ds: seq<real>, n: nat): (sel: seq<nat>)
    requires n <= |ds|
    ensures |sel| <= MatchLimit
    ensures forall k :: 0 <= k < |sel| ==> sel[k] < n
  {
    if n == 0 then []
    else
      Offer(ds, NearQuery(ds, n - 1), n - 1)
  }

  // Each branch of `Offer` keeps the answer correct once document `i` has
  // been seen.

  lemma OfferFar(ds: seq<real>, sel: seq<nat>, i: nat)
    requires i < |ds| && IsNearest(ds, sel, i)
    requires ds[i] > MaxDistance
    ensures IsNearest(ds, sel, i + 1)
  {
  }

  lemma OfferFirst(ds: seq<real>, sel: seq<nat>, i: nat)
    requires i < |ds| && IsNearest(ds, sel, i)
    requires ds[i] <= MaxDistance && |sel| == 0
    ensures IsNearest(ds, [i], i + 1)
  {
  }

  lemma OfferInFront(ds: seq<real>, sel: seq<nat>, i: nat)
    requires i < |ds| && IsNearest(ds, sel, i)
    requires ds[i] <= MaxDistance && |sel| > 0 && ds[i] < ds[sel[0]]
    ensures IsNearest(ds, [i, sel[0]], i + 1)
  {
  }

  lemma OfferSecond(ds: seq<real>, sel: seq<nat>, i: nat)
    requires i < |ds| && IsNearest(ds, sel, i)
    requires ds[i] <= MaxDistance && |sel| == 1 && ds[sel[0]] <= ds[i]
    ensures IsNearest(ds, [sel[0], i], i + 1)
  {
  }

  lemma OfferReplaceSecond(ds: seq<real>, sel: seq<nat>, i: nat)
    requires i < |ds| && IsNearest(ds, sel, i)
    requires |sel| == 2 && ds[sel[0]] <= ds[i] < ds[sel[1]]
    ensures IsNearest(ds, [sel[0], i], i + 1)
  {
  }

  lemma OfferBehind(ds: seq<real>, sel: seq<nat>, i: nat)
    requires i < |ds| && IsNearest(ds, sel, i)
    requires |sel| == 2 && ds[sel[1]] <= ds[i]
    ensures IsNearest(ds, sel, i + 1)
  {
  }

  /** Offering the next document keeps the answer a correct one for the
      documents seen so far. */
  lemma OfferKeepsNearest(ds: seq<real>, sel: seq<nat>, i: nat)
    requires i < |ds|
    requires IsNearest(ds, sel, i)
    ensures IsNearest(ds, Offer(ds, sel, i), i + 1)
  {
    if ds[i] > MaxDistance {
      OfferFar(ds, sel, i);
    } else if |sel| == 0 {
      OfferFirst(ds, sel, i);
    } else if ds[i] < ds[sel[0]] {
      OfferInFront(ds, sel, i);
    } else if |sel| == 1 {
      OfferSecond(ds, sel, i);
    } else if ds[i] < ds[sel[1]] {
      OfferReplaceSecond(ds, sel, i);
    } else {
      OfferBehind(ds, sel, i);
    }
  }

  /** The query answer meets the whole specification of `$near` with a
      radius and a limit. */
  lemma {:induction false} NearQueryIsNearest(ds: seq<real>, n: nat)
    requires n <= |ds|
    ensures IsNearest(ds, NearQuery(ds, n), n)
  {
    if n > 0 {
      NearQueryIsNearest(ds, n - 1);
      NearQueryStep(ds, n);
    }
  }

  /** One more document seen by the query. */
  lemma NearQueryStep(ds: seq<real>, n: nat)
    requires 0 < n <= |ds|
    requires IsNearest(ds, NearQuery(ds, n - 1), n - 1)
    ensures IsNearest(ds, NearQuery(ds, n), n)
  {
    OfferKeepsNearest(ds, NearQuery(ds, n - 1), n - 1);
  }

  /** The ids of the chosen volunteers, in query order
      (`nearestVolunteers.map(v => v._id.toString())`). */
  function IdsOf(vols: seq<V.Volunteer>, sel: seq<nat>): (ids: seq<Id>)
    requires forall k :: 0 <= k < |sel| ==> sel[k] < |vols|
    ensures |ids| == |sel|
    ensures forall k :: 0 <= k < |sel| ==> ids[k] == vols[sel[k]].id
  {
    seq(|sel|, k requires 0 <= k < |sel| => vols[sel[k]].id)
  }

  // ----- the back-reference loop -----

  /** The volunteer collection after the accident id has been pushed onto
      the `liveAccidents` of the documents at the indices `sel`, one index
      after the other; an index past the end changes nothing. */
  function AppendLive(vols: seq<V.Volunteer>, sel: seq<nat>, accidentId: Id): (r: seq<V.Volunteer>)
    ensures |r| == |vols|
    decreases |sel|
  {
    if sel == [] then vols
    else
      var p := AppendLive(vols, sel[..|sel| - 1], accidentId);
      var i := sel[|sel| - 1];
      if i < |p| then p[i := p[i].(liveAccidents := p[i].liveAccidents + [accidentId])] else p
  }

  /** With distinct indices in range, exactly the chosen volunteers change,
      each only by the accident id at the end of its `liveAccidents`. */
  lemma {:induction false} AppendLiveChanges(vols: seq<V.Volunteer>, sel: seq<nat>, accidentId: Id)
    requires forall j :: 0 <= j < |sel| ==> sel[j] < |vols|
    requires forall j, l :: 0 <= j < l < |sel| ==> sel[j] != sel[l]
    ensures var r := AppendLive(vols, sel, accidentId);
      && (forall i :: 0 <= i < |vols| && i !in sel ==> r[i] == vols[i])
      && (forall i :: 0 <= i < |vols| && i in sel ==>
            r[i] == vols[i].(liveAccidents := vols[i].liveAccidents + [accidentId]))
    decreases |sel|
  {
    if sel != [] {
      var front, last := sel[..|sel| - 1], sel[|sel| - 1];
      AppendLiveChanges(vols, front, accidentId);
      assert last !in front;
      assert sel == front + [last];
    }
  }

  /** How many of the chosen volunteers are saved before the first save
      that fails (all of them when none fails). */
  function SavedPrefix(ids: seq<Id>, saved: Id -> bool): (k: nat)
    ensures k <= |ids|
    ensures forall j :: 0 <= j < k ==> saved(ids[j])
    ensures k < |ids| ==> !saved(ids[k])
  {
    if ids == [] || !saved(ids[0]) then 0 else 1 + SavedPrefix(ids[1..], saved)
  }

  function SaveWrites(ids: seq<Id>): (w: seq<Write>)
    ensures |w| == |ids|
    ensures forall k :: 0 <= k < |ids| ==> w[k] == SaveVolunteer(ids[k])
  {
    seq(|ids|, k requires 0 <= k < |ids| => SaveVolunteer(ids[k]))
  }

  /** Pushing onto `liveAccidents` changes no ObjectId and no location. */
  lemma {:induction false} AppendLiveIds(vols: seq<V.Volunteer>, sel: seq<nat>, accidentId: Id)
    ensures forall i :: 0 <= i < |vols| ==> AppendLive(vols, sel, accidentId)[i].id == vols[i].id
    ensures forall i :: 0 <= i < |vols| ==> AppendLive(vols, sel, accidentId)[i].location == vols[i].location
    decreases |sel|
  {
    if sel != [] {
      AppendLiveIds(vols, sel[..|sel| - 1], accidentId);
    }
  }

  /** So the ObjectIds stay distinct. */
  lemma AppendLiveKeepsIds(vols: seq<V.Volunteer>, sel: seq<nat>, accidentId: Id)
    requires UniqueVolunteerIds(vols)
    ensures UniqueVolunteerIds(AppendLive(vols, sel, accidentId))
  {
    AppendLiveIds(vols, sel, accidentId);
  }

  /** So every location stays one the 2dsphere index takes. */
  lemma AppendLiveKeepsLocations(vols: seq<V.Volunteer>, sel: seq<nat>, accidentId: Id)
    requires IndexableLocations(vols)
    ensures IndexableLocations(AppendLive(vols, sel, accidentId))
  {
    AppendLiveIds(vols, sel, accidentId);
    var r := AppendLive(vols, sel, accidentId);
    forall v | v in r
      ensures IsIndexable(v.location)
    {
      var i :| 0 <= i < |r| && r[i] == v;
      assert vols[i] in vols;
    }
  }

  lemma SaveWritesStep(ids: seq<Id>, k: nat)
    requires k < |ids|
    ensures SaveWrites(ids[..k + 1]) == SaveWrites(ids[..k]) + [SaveVolunteer(ids[k])]
  {
  }

  /** Everything the route does once the defaults are filled in. `dist` is
      MongoDB's distance, `accidentId` the ObjectId the new accident
      receives, and `saved(id)` whether the save of that volunteer succeeds.
      A location `$near` cannot use, or an accident the schema rejects, is a
      500 with nothing written. Otherwise the accident is inserted first,
      carrying the chosen ids in query order; then the chosen volunteers are
      saved one at a time with the accident id at the end of
      `liveAccidents`, and the first failed save stops the loop with a 500,
      leaving the accident and the volunteers saved before it. No other
      volunteer, and no other field, changes. */
  method Store(db: Database, data: A.AccidentData, dist: (GeoPoint, GeoPoint) -> real,
               accidentId: Id, saved: Id -> bool) returns (resp: ReportResponse)
    requires db.Valid()
    requires accidentId !in db.AccidentIds()
    modifies db
    ensures db.Valid()
    ensures db.hospitals == old(db.hospitals)
    ensures !IsIndexable(data.location) ==> resp == Failed && unchanged(db)
    ensures IsIndexable(data.location) ==>
      var sel := NearQuery(Distances(old(db.volunteers), dist, data.location), |old(db.volunteers)|);
      var ids := IdsOf(old(db.volunteers), sel);
      var stored := data.(nearestVolunteers := Some(ids));
      if !A.StoredAccepts(stored) then
        resp == Failed && unchanged(db)
      else
        var k := SavedPrefix(ids, saved);
        && db.accidents == old(db.accidents) + [A.Accident(accidentId, stored)]
        && db.volunteers == AppendLive(old(db.volunteers), sel[..k], accidentId)
        && db.writes == old(db.writes) + [InsertAccident(accidentId)] + SaveWrites(ids[..k])
        && resp == (if k == |ids| then Reported(ids) else Failed)
  {
    if !IsIndexable(data.location) {
      return Failed;
    }
    var vols := db.volunteers;
    var sel := NearQuery(Distances(vols, dist, data.location), |vols|);
    NearQueryIsNearest(Distances(vols, dist, data.location), |vols|);
    var ids := IdsOf(vols, sel);
    var stored := data.(nearestVolunteers := Some(ids));
    if !A.StoredAccepts(stored) {
      return Failed;
    }
    db.accidents := db.accidents + [A.Accident(accidentId, stored)];
    db.writes := db.writes + [InsertAccident(accidentId)];
    var k := LinkVolunteers(db, sel, ids, accidentId, saved);
    resp := if k == |ids| then Reported(ids) else Failed;
  }

  /** The route as written: `Store` with the defaults of `WithDefaults`. A
      report without a hospital is a 500 that writes nothing, because the
      placeholder text never casts to an ObjectId. */
  method Post(db: Database, req: ReportRequest, dist: (GeoPoint, GeoPoint) -> real,
              accidentId: Id, saved: Id -> bool) returns (resp: ReportResponse)
    requires db.Valid()
    requires accidentId !in db.AccidentIds()
    modifies db
    ensures db.Valid()
    ensures db.hospitals == old(db.hospitals)
    ensures !Truthy(req.hospital) ==> resp == Failed && unchanged(db)
    ensures var d := WithDefaults(req);
      !IsIndexable(d.location) ==> resp == Failed && unchanged(db)
    ensures var d := WithDefaults(req);
      IsIndexable(d.location) ==>
        var sel := NearQuery(Distances(old(db.volunteers), dist, d.location), |old(db.volunteers)|);
        var ids := IdsOf(old(db.volunteers), sel);
        var stored := d.(nearestVolunteers := Some(ids));
        if !A.StoredAccepts(stored) then
          resp == Failed && unchanged(db)
        else
          var k := SavedPrefix(ids, saved);
          && db.accidents == old(db.accidents) + [A.Accident(accidentId, stored)]
          && db.volunteers == AppendLive(old(db.volunteers), sel[..k], accidentId)
          && db.writes == old(db.writes) + [InsertAccident(accidentId)] + SaveWrites(ids[..k])
          && resp == (if k == |ids| then Reported(ids) else Failed)
  {
    var data := WithDefaults(req);
    if !Truthy(req.hospital) && IsIndexable(data.location) {
      var sel := NearQuery(Distances(db.volunteers, dist, data.location), |db.volunteers|);
      ReportWithoutHospitalFails(req, IdsOf(db.volunteers, sel));
    }
    resp := Store(db, data, dist, accidentId, saved);
  }

  /** The route with the corrected defaults of `WithDefaultsFixed`: a
      report without a hospital is stored without one. */
  method PostFixed(db: Database, req: ReportRequest, dist: (GeoPoint, GeoPoint) -> real,
                   accidentId: Id, saved: Id -> bool) returns (resp: ReportResponse)
    requires db.Valid()
    requires accidentId !in db.AccidentIds()
    modifies db
    ensures db.Valid()
    ensures db.hospitals == old(db.hospitals)
    ensures var d := WithDefaultsFixed(req);
      !IsIndexable(d.location) ==> resp == Failed && unchanged(db)
    ensures var d := WithDefaultsFixed(req);
      IsIndexable(d.location) ==>
        var sel := NearQuery(Distances(old(db.volunteers), dist, d.location), |old(db.volunteers)|);
        var ids := IdsOf(old(db.volunteers), sel);
        var stored := d.(nearestVolunteers := Some(ids));
        if !A.StoredAccepts(stored) then
          resp == Failed && unchanged(db)
        else
          var k := SavedPrefix(ids, saved);
          && db.accidents == old(db.accidents) + [A.Accident(accidentId, stored)]
          && db.volunteers == AppendLive(old(db.volunteers), sel[..k], accidentId)
          && db.writes == old(db.writes) + [InsertAccident(accidentId)] + SaveWrites(ids[..k])
          && resp == (if k == |ids| then Reported(ids) else Failed)
  {
    resp := Store(db, WithDefaultsFixed(req), dist, accidentId, saved);
  }

  /** The `for` loop over the chosen volunteers: push the accident id onto
      each one's `liveAccidents` and save it, stopping at the first save
      that fails. Returns how many were saved. */
  method LinkVolunteers(db: Database, sel: seq<nat>, ids: seq<Id>, accidentId: Id, saved: Id -> bool)
    returns (k: nat)
    requires db.Valid()
    requires forall j :: 0 <= j < |sel| ==> sel[j] < |db.volunteers|
    requires forall j, l :: 0 <= j < l < |sel| ==> sel[j] != sel[l]
    requires ids == IdsOf(db.volunteers, sel)
    modifies db
    ensures db.Valid()
    ensures k == SavedPrefix(ids, saved)
    ensures db.volunteers == AppendLive(old(db.volunteers), sel[..k], accidentId)
    ensures db.writes == old(db.writes) + SaveWrites(ids[..k])
    ensures db.accidents == old(db.accidents) && db.hospitals == old(db.hospitals)
  {
    ghost var vols := db.volunteers;
    k := 0;
    while k < |sel|
      invariant k <= SavedPrefix(ids, saved)
      invariant db.volunteers == AppendLive(vols, sel[..k], accidentId)
      invariant db.writes == old(db.writes) + SaveWrites(ids[..k])
      invariant db.accidents == old(db.accidents) && db.hospitals == old(db.hospitals)
    {
      var i := sel[k];
      assert db.volunteers[i].id == ids[k] by {
        AppendLiveIds(vols, sel[..k], accidentId);
      }
      var ok := PushAndSave(db, i, accidentId, saved);
      if !ok {
        break;
      }
      assert sel[..k + 1][..k] == sel[..k];
      assert SaveWrites(ids[..k + 1]) == SaveWrites(ids[..k]) + [SaveVolunteer(ids[k])] by {
        SaveWritesStep(ids, k);
      }
      k := k + 1;
    }
    AppendLiveKeepsIds(vols, sel[..k], accidentId);
    AppendLiveKeepsLocations(vols, sel[..k], accidentId);
  }

  /** One turn of the loop: push the accident id onto the `liveAccidents` of
      the volunteer at index `i` and save it. A failed save leaves the
      stored document as it was. */
  method PushAndSave(db: Database, i: nat, accidentId: Id, saved: Id -> bool) returns (ok: bool)
    requires i < |db.volunteers|
    modifies db
    ensures var v := old(db.volunteers)[i];
      && ok == saved(v.id)
      && (ok ==> db.volunteers == old(db.volunteers)[i := v.(liveAccidents := v.liveAccidents + [accidentId])]
                 && db.writes == old(db.writes) + [SaveVolunteer(v.id)])
      && (!ok ==> db.volunteers == old(db.volunteers) && db.writes == old(db.writes))
    ensures db.accidents == old(db.accidents) && db.hospitals == old(db.hospitals)
  {
    var v := db.volunteers[i];
    ok := saved(v.id);
    if ok {
      db.volunteers := db.volunteers[i := v.(liveAccidents := v.liveAccidents + [accidentId])];
      db.writes := db.writes + [SaveVolunteer(v.id)];
    }
  }
}

=== FILE: reporting_page.dfy ===
/** The accident reporting page: the picked images and videos with their
    previews, the one-time-code slots, the FAQ accordion, and the submission
    that uploads the media and then builds the accident report. */
module ReportingPage {
  import opened Base
  import opened Geo
  import opened UploadFiles
  import RA = ReportAccident
  import A = AccidentSchema

  /** `GeolocationCoordinates`. */
  datatype Position = Position(latitude: real, longitude: real)

  /** The initial `otp` state: four empty slots. An array hole, which a
      write past the end leaves behind, is `None`. */
  const InitialOtp: seq<Option<string>> := [Some(""), Some(""), Some(""), Some("")]

  /** `selectedFiles.map(file => URL.createObjectURL(file))`. */
  function PreviewUrls(fs: seq<File>, objectUrl: File -> string): (urls: seq<string>)
    ensures |urls| == |fs|
    ensures forall i :: 0 <= i < |fs| ==> urls[i] == objectUrl(fs[i])
  {
    seq(|fs|, i requires 0 <= i < |fs| => objectUrl(fs[i]))
  }

  /** `newOtp[index] = value` on a copy: the slot is set and the others
      kept; past the end the array grows, with holes in between. */
  function SetSlot(otp: seq<Option<string>>, index: nat, value: string): (r: seq<Option<string>>)
    ensures index < |otp| ==> |r| == |otp|
    ensures index >= |otp| ==> |r| == index + 1
    ensures r[index] == Some(value)
    ensures forall j :: 0 <= j < |otp| && j != index ==> r[j] == otp[j]
    ensures forall j :: |otp| <= j < |r| && j != index ==> r[j].None?
  {
    if index < |otp| then otp[index := Some(value)]
    else otp + seq(index - |otp|, _ => None) + [Some(value)]
  }

  /** `toggleFAQ`: the open item closes, any other item opens. */
  function Toggled(active: Option<int>, index: int): (r: Option<int>)
    ensures r.None? <==> active == Some(index)
    ensures r.Some? ==> r.value == index
  {
    if active == Some(index) then None else Some(index)
  }

  /** Toggling the same item twice restores the accordion exactly when it
      was closed or showing that item; from another open item it ends
      closed. */
  lemma ToggleTwice(active: Option<int>, index: int)
    ensures Toggled(Toggled(active, index), index) == active <==> active.None? || active == Some(index)
    ensures active.Some? && active != Some(index) ==> Toggled(Toggled(active, index), index).None?
  {
  }

  // ----- the upload request -----

  /** One `formData.append('file', f)` per file. */
  function FileEntries(fs: seq<File>): (es: seq<FormEntry>)
    ensures |es| == |fs|
    ensures forall i :: 0 <= i < |fs| ==> es[i] == FormEntry(FileKey, FileValue(fs[i]))
  {
    seq(|fs|, i requires 0 <= i < |fs| => FormEntry(FileKey, FileValue(fs[i])))
  }

  function FileValues(fs: seq<File>): (vs: seq<FormValue>)
    ensures |vs| == |fs|
    ensures forall i :: 0 <= i < |fs| ==> vs[i] == FileValue(fs[i])
  {
    seq(|fs|, i requires 0 <= i < |fs| => FileValue(fs[i]))
  }

  /** The form data `handleSubmit` posts: the images, then the videos, all
      under `file`, then `description` and `reporters`. */
  function UploadEntries(files: seq<File>, videos: seq<File>, description: string, email: string)
    : (es: seq<FormEntry>)
    ensures |es| == |files| + |videos| + 2
    ensures es[..|files|] == FileEntries(files)
    ensures es[|files|..|files| + |videos|] == FileEntries(videos)
    ensures es[|files| + |videos|..] ==
      [FormEntry("description", TextValue(description)), FormEntry("reporters", TextValue(email))]
  {
    FileEntries(files) + FileEntries(videos)
    + [FormEntry("description", TextValue(description)), FormEntry("reporters", TextValue(email))]
  }

  lemma {:induction false} GetAllFileEntries(fs: seq<File>)
    ensures GetAll(FileEntries(fs), FileKey) == FileValues(fs)
  {
    if fs != [] {
      var es := FileEntries(fs);
      assert es[1..] == FileEntries(fs[1..]);
      GetAllFileEntries(fs[1..]);
      assert GetAll(es, FileKey) == [FileValue(fs[0])] + FileValues(fs[1..]);
      assert FileValues(fs) == [FileValue(fs[0])] + FileValues(fs[1..]);
    }
  }

  /** The upload route receives exactly the images followed by the videos:
      the text fields are not under `file`. */
  lemma {:induction false} RouteReceivesImagesThenVideos(files: seq<File>, videos: seq<File>,
                                                         description: string, email: string)
    ensures ParseFormData(UploadEntries(files, videos, description, email)) == FileValues(files) + FileValues(videos)
  {
    var texts := [FormEntry("description", TextValue(description)), FormEntry("reporters", TextValue(email))];
    GetAllConcat(FileEntries(files) + FileEntries(videos), texts, FileKey);
    GetAllConcat(FileEntries(files), FileEntries(videos), FileKey);
    GetAllFileEntries(files);
    GetAllFileEntries(videos);
    assert GetAll(texts[1..], FileKey) == [];
  }

  /** URLs that follow the parsed values one for one follow the images,
      then the videos. */
  lemma UrlsFollowFiles(files: seq<File>, videos: seq<File>, vs: seq<FormValue>, urls: seq<string>,
                        upload: (File, ResourceType, string) -> Option<string>)
    requires vs == FileValues(files) + FileValues(videos)
    requires |urls| == |vs|
    requires forall i :: 0 <= i < |urls| ==>
      vs[i].FileValue? && upload(vs[i].file, ResourceTypeOf(vs[i].file), Folder) == Some(urls[i])
    ensures forall i :: 0 <= i < |files| ==>
      upload(files[i], ResourceTypeOf(files[i]), Folder) == Some(urls[i])
    ensures forall i :: 0 <= i < |videos| ==>
      upload(videos[i], ResourceTypeOf(videos[i]), Folder) == Some(urls[|files| + i])
  {
    forall i | 0 <= i < |files|
      ensures upload(files[i], ResourceTypeOf(files[i]), Folder) == Some(urls[i])
    {
      assert vs[i] == FileValue(files[i]);
    }
    forall i | 0 <= i < |videos|
      ensures upload(videos[i], ResourceTypeOf(videos[i]), Folder) == Some(urls[|files| + i])
    {
      assert vs[|files| + i] == FileValue(videos[i]);
    }
  }

  /** A successful upload answers with one URL per picked file: first the
      images', then the videos', each the URL of its own file. */
  lemma {:induction false} UploadKeepsOrder(files: seq<File>, videos: seq<File>, description: string, email: string,
                                            upload: (File, ResourceType, string) -> Option<string>)
    requires Post(UploadEntries(files, videos, description, email), upload).UploadOk?
    ensures var urls := Post(UploadEntries(files, videos, description, email), upload).urls;
      && |urls| == |files| + |videos|
      && (forall i :: 0 <= i < |files| ==>
            upload(files[i], ResourceTypeOf(files[i]), Folder) == Some(urls[i]))
      && (forall i :: 0 <= i < |videos| ==>
            upload(videos[i], ResourceTypeOf(videos[i]), Folder) == Some(urls[|files| + i]))
  {
    var es := UploadEntries(files, videos, description, email);
    var vs := ParseFormData(es);
    var urls := Post(es, upload).urls;
    assert vs == FileValues(files) + FileValues(videos) by {
      RouteReceivesImagesThenVideos(files, videos, description, email);
    }
    UrlsFollowFiles(files, videos, vs, urls, upload);
  }

  // ----- the accident report -----

  /** The location sent: the origin by default, `[longitude, latitude]`
      with a position fix. */
  function ReportLocation(position: Option<Position>): (p: GeoPoint)
    ensures IsPoint(p)
    ensures position.None? ==> p == Origin()
    ensures position.Some? ==>
      Longitude(p) == position.value.longitude && Latitude(p) == position.value.latitude
  {
    match position
    case None => Origin()
    case Some(pos) => At(pos.longitude, pos.latitude)
  }

  /** `reportData`: the uploaded URLs sorted into photos (those containing
      `image`) and videos (those containing `video`), in upload order. The
      page sends no hospital and no status; its `nearestVolunteers: []` is
      overwritten by the route. */
  function ReportData(description: string, email: string, urls: seq<string>, position: Option<Position>)
    : (r: RA.ReportRequest)
    ensures r.description == Some(description) && r.reporters == Some([email])
    ensures r.photos.Some? && r.videos.Some?
    ensures forall u :: u in r.photos.value <==> u in urls && Contains(u, "image")
    ensures forall u :: u in r.videos.value <==> u in urls && Contains(u, "video")
    ensures r.location == Some(ReportLocation(position))
    ensures r.hospital.None? && r.status.None?
  {
    RA.ReportRequest(Some(description), Some([email]), Some(Filter(urls, "image")),
                     Some(Filter(urls, "video")), Some(ReportLocation(position)), None, None)
  }

  /** Sorting the URLs one upload batch at a time gives the same lists as
      sorting them all at once. */
  lemma {:induction false} ReportDataSplits(d: string, e: string, xs: seq<string>, ys: seq<string>, p: Option<Position>)
    ensures ReportData(d, e, xs + ys, p).photos.value
         == ReportData(d, e, xs, p).photos.value + ReportData(d, e, ys, p).photos.value
    ensures ReportData(d, e, xs + ys, p).videos.value
         == ReportData(d, e, xs, p).videos.value + ReportData(d, e, ys, p).videos.value
  {
    FilterConcat(xs, ys, "image");
    FilterConcat(xs, ys, "video");
  }

  /** As written, the route can store no report this page sends: the page
      never sends a hospital, so the placeholder text is stored in its
      place. */
  lemma PageReportFailsAsWritten(d: string, e: string, urls: seq<string>, p: Option<Position>, ids: seq<Id>)
    ensures !A.StoredAccepts(RA.WithDefaults(ReportData(d, e, urls, p)).(nearestVolunteers := Some(ids)))
  {
    RA.ReportWithoutHospitalFails(ReportData(d, e, urls, p), ids);
  }

  /** With the corrected defaults, a report from this page is stored exactly
      when its position fix (if any) is a valid longitude and latitude. */
  lemma PageReportStoredIff(d: string, e: string, urls: seq<string>, p: Option<Position>, ids: seq<Id>)
    ensures A.StoredAccepts(RA.WithDefaultsFixed(ReportData(d, e, urls, p)).(nearestVolunteers := Some(ids)))
        <==> p.None? || (-180.0 <= p.value.longitude <= 180.0 && -90.0 <= p.value.latitude <= 90.0)
  {
    RA.FixedDefaultsStoredIff(ReportData(d, e, urls, p), ids);
  }

  /** The page's state. */
  class ReportForm {
    var files: seq<File>
    var previewUrls: seq<string>
    var videoFiles: seq<File>
    var videoPreviewUrls: seq<string>
    var description: string
    var email: string
    var otp: seq<Option<string>>
    var activeFaq: Option<int>

    /** Every picked file has its preview. */
    ghost predicate Valid()
      reads this
    {
      |files| == |previewUrls| && |videoFiles| == |videoPreviewUrls|
    }

    constructor ()
      ensures Valid()
      ensures files == [] && previewUrls == [] && videoFiles == [] && videoPreviewUrls == []
      ensures description == "" && email == "" && otp == InitialOtp && activeFaq.None?
    {
      files, previewUrls, videoFiles, videoPreviewUrls := [], [], [], [];
      description, email, otp, activeFaq := "", "", InitialOtp, None;
    }

    /** `handleFileChange`: the picked images and their previews are
        appended. `objectUrl` stands for `URL.createObjectURL`. */
    method HandleFileChange(selected: seq<File>, objectUrl: File -> string)
      requires Valid()
      modifies this
      ensures Valid()
      ensures files == old(files) + selected
      ensures previewUrls == old(previewUrls) + PreviewUrls(selected, objectUrl)
      ensures videoFiles == old(videoFiles) && videoPreviewUrls == old(videoPreviewUrls)
      ensures description == old(description) && email == old(email)
      ensures otp == old(otp) && activeFaq == old(activeFaq)
    {
      files := files + selected;
      previewUrls := previewUrls + PreviewUrls(selected, objectUrl);
    }

    /** `handleVideoFileChange`: the same for videos. */
    method HandleVideoFileChange(selected: seq<File>, objectUrl: File -> string)
      requires Valid()
      modifies this
      ensures Valid()
      ensures videoFiles == old(videoFiles) + selected
      ensures videoPreviewUrls == old(videoPreviewUrls) + PreviewUrls(selected, objectUrl)
      ensures files == old(files) && previewUrls == old(previewUrls)
      ensures description == old(description) && email == old(email)
      ensures otp == old(otp) && activeFaq == old(activeFaq)
    {
      videoFiles := videoFiles + selected;
      videoPreviewUrls := videoPreviewUrls + PreviewUrls(selected, objectUrl);
    }

    /** `handleDescriptionChange`. */
    method HandleDescriptionChange(value: string)
      requires Valid()
      modifies this
      ensures Valid()
      ensures description == value
      ensures files == old(files) && previewUrls == old(previewUrls)
      ensures videoFiles == old(videoFiles) && videoPreviewUrls == old(videoPreviewUrls)
      ensures email == old(email) && otp == old(otp) && activeFaq == old(activeFaq)
    {
      description := value;
    }

    /** `handleEmailChange`. */
    method HandleEmailChange(value: string)
      requires Valid()
      modifies this
      ensures Valid()
      ensures email == value
      ensures files == old(files) && previewUrls == old(previewUrls)
      ensures videoFiles == old(videoFiles) && videoPreviewUrls == old(videoPreviewUrls)
      ensures description == old(description) && otp == old(otp) && activeFaq == old(activeFaq)
    {
      email := value;
    }

    /** `handleOtpChange`. */
    method HandleOtpChange(index: nat, value: string)
      requires Valid()
      modifies this
      ensures Valid()
      ensures otp == SetSlot(old(otp), index, value)
      ensures files == old(files) && previewUrls == old(previewUrls)
      ensures videoFiles == old(videoFiles) && videoPreviewUrls == old(videoPreviewUrls)
      ensures description == old(description) && email == old(email) && activeFaq == old(activeFaq)
    {
      otp := SetSlot(otp, index, value);
    }

    /** `toggleFAQ`. */
    method ToggleFaq(index: int)
      requires Valid()
      modifies this
      ensures Valid()
      ensures activeFaq == Toggled(old(activeFaq), index)
      ensures files == old(files) && previewUrls == old(previewUrls)
      ensures videoFiles == old(videoFiles) && videoPreviewUrls == old(videoPreviewUrls)
      ensures description == old(description) && email == old(email) && otp == old(otp)
    {
      activeFaq := Toggled(activeFaq, index);
    }

    /** The two `for` loops and two appends that build the upload's form
        data. */
    method UploadFormData() returns (formData: seq<FormEntry>)
      ensures formData == UploadEntries(files, videoFiles, description, email)
    {
      formData := [];
      for i := 0 to |files|
        invariant formData == FileEntries(files[..i])
      {
        formData := formData + [FormEntry(FileKey, FileValue(files[i]))];
      }
      assert files[..|files|] == files;
      for i := 0 to |videoFiles|
        invariant formData == FileEntries(files) + FileEntries(videoFiles[..i])
      {
        formData := formData + [FormEntry(FileKey, FileValue(videoFiles[i]))];
      }
      assert videoFiles[..|videoFiles|] == videoFiles;
      formData := formData + [FormEntry("description", TextValue(description))];
      formData := formData + [FormEntry("reporters", TextValue(email))];
    }

    /** `handleSubmit` up to the report request: upload the media through
        the upload route; when that fails nothing more is sent, otherwise
        the report is built from the returned URLs. `upload` stands for
        Cloudinary and `position` for the browser's position fix. */
    method Submit(upload: (File, ResourceType, string) -> Option<string>, position: Option<Position>)
      returns (sent: Option<RA.ReportRequest>)
      ensures var resp := Post(UploadEntries(files, videoFiles, description, email), upload);
        && (resp.UploadFailed? <==> sent.None?)
        && (resp.UploadOk? ==> sent == Some(ReportData(description, email, resp.urls, position)))
    {
      var formData := UploadFormData();
      var resp := Post(formData, upload);
      if resp.UploadFailed? {
        return None;
      }
      sent := Some(ReportData(description, email, resp.urls, position));
    }
  }
}

=== FILE: signup_schema.dfy ===
/** `FormDataSchema`, the zod schema behind the volunteer signup wizard, as
    the set of fields it reports an error on. */
module SignupSchema {
  import opened Base

  /** The form values react-hook-form holds. A field the user never
      rendered, or one cleared by `reset()`, is absent. */
  datatype FormValues = FormValues(
    firstName: Option<string>,
    lastName: Option<string>,
    email: Option<string>,
    country: Option<string>,
    street: Option<string>,
    city: Option<string>,
    state: Option<string>,
    zip: Option<string>,
    useCurrentLocation: Option<bool>,
    latitude: Option<string>,
    longitude: Option<string>,
    password: Option<string>,
    confirmPassword: Option<string>)

  /** The values after `reset()`: the form has no default values. */
  const Cleared: FormValues :=
    FormValues(None, None, None, None, None, None, None, None, None, None, None, None, None)

  datatype Field =
    | FirstName | LastName | Email
    | Country | Street | City | State | Zip
    | UseCurrentLocation | Latitude | Longitude
    | Password | ConfirmPassword

  const MinPasswordLength: nat := 8

  /** A required string: absent is zod's "Required", shorter than `min`
      its size message. Lengths are JavaScript's, in UTF-16 code units. */
  predicate RequiredOk(v: Option<string>, min: nat) {
    v.Some? && Utf16Length(v.value) >= min
  }

  /** `z.string().min(1).optional()`: absent, or non-empty. */
  predicate OptionalOk(v: Option<string>) {
    v.None? || Utf16Length(v.value) >= 1
  }

  /** No required field is absent. Zod runs the `refine` step only then: a
      missing required field aborts the object, a short string does not. */
  predicate NoTypeError(v: FormValues) {
    v.firstName.Some? && v.lastName.Some? && v.email.Some?
    && v.password.Some? && v.confirmPassword.Some?
  }

  const AllFields: set<Field> := {
    FirstName, LastName, Email, Country, Street, City, State, Zip,
    UseCurrentLocation, Latitude, Longitude, Password, ConfirmPassword }

  /** Whether `FormDataSchema` reports an error on field `f`; `isEmail`
      stands for zod's e-mail pattern. A password mismatch is reported on
      `confirmPassword`. */
  predicate HasError(v: FormValues, isEmail: string -> bool, f: Field) {
    match f
    case FirstName => !RequiredOk(v.firstName, 1)
    case LastName => !RequiredOk(v.lastName, 1)
    case Email => !(RequiredOk(v.email, 1) && isEmail(v.email.value))
    case Country => !OptionalOk(v.country)
    case Street => !OptionalOk(v.street)
    case City => !OptionalOk(v.city)
    case State => !OptionalOk(v.state)
    case Zip => !OptionalOk(v.zip)
    case UseCurrentLocation => false
    case Latitude => false
    case Longitude => false
    case Password => !RequiredOk(v.password, MinPasswordLength)
    case ConfirmPassword =>
      !RequiredOk(v.confirmPassword, MinPasswordLength)
      || (NoTypeError(v) && v.password.value != v.confirmPassword.value)
  }

  /** The fields `FormDataSchema` reports an error on. */
  function Errors(v: FormValues, isEmail: string -> bool): (r: set<Field>)
    ensures FirstName in r <==> !RequiredOk(v.firstName, 1)
    ensures LastName in r <==> !RequiredOk(v.lastName, 1)
    ensures Email in r <==> !(RequiredOk(v.email, 1) && isEmail(v.email.value))
    ensures Country in r <==> !OptionalOk(v.country)
    ensures Street in r <==> !OptionalOk(v.street)
    ensures City in r <==> !OptionalOk(v.city)
    ensures State in r <==> !OptionalOk(v.state)
    ensures Zip in r <==> !OptionalOk(v.zip)
    ensures UseCurrentLocation !in r && Latitude !in r && Longitude !in r
    ensures Password in r <==> !RequiredOk(v.password, MinPasswordLength)
    ensures ConfirmPassword in r <==>
      !RequiredOk(v.confirmPassword, MinPasswordLength)
      || (NoTypeError(v) && v.password.value != v.confirmPassword.value)
  {
    set f | f in AllFields && HasError(v, isEmail, f)
  }

  /** The schema accepts the values. */
  predicate Accepts(v: FormValues, isEmail: string -> bool) {
    Errors(v, isEmail) == {}
  }

  /** What acceptance means field by field, including the refinement. */
  lemma {:induction false} AcceptsExactly(v: FormValues, isEmail: string -> bool)
    ensures Accepts(v, isEmail) <==>
      && RequiredOk(v.firstName, 1) && RequiredOk(v.lastName, 1)
      && RequiredOk(v.email, 1) && isEmail(v.email.value)
      && OptionalOk(v.country) && OptionalOk(v.street) && OptionalOk(v.city)
      && OptionalOk(v.state) && OptionalOk(v.zip)
      && RequiredOk(v.password, MinPasswordLength) && RequiredOk(v.confirmPassword, MinPasswordLength)
      && v.password.value == v.confirmPassword.value
  {
    var e := Errors(v, isEmail);
    if !Accepts(v, isEmail) {
      var f :| f in e;
    }
  }

  /** Two passwords long enough but different: the only error is on
      `confirmPassword` ("Passwords must match"), when everything else is
      fine. */
  lemma MismatchIsReportedOnConfirm(v: FormValues, isEmail: string -> bool)
    requires RequiredOk(v.firstName, 1) && RequiredOk(v.lastName, 1)
    requires RequiredOk(v.email, 1) && isEmail(v.email.value)
    requires OptionalOk(v.country) && OptionalOk(v.street) && OptionalOk(v.city)
    requires OptionalOk(v.state) && OptionalOk(v.zip)
    requires RequiredOk(v.password, MinPasswordLength) && RequiredOk(v.confirmPassword, MinPasswordLength)
    requires v.password.value != v.confirmPassword.value
    ensures Errors(v, isEmail) == {ConfirmPassword}
  {
  }

  /** The cleared form is never accepted: `reset()` leaves nothing a second
      submission could send. */
  lemma ClearedIsRejected(isEmail: string -> bool)
    ensures Errors(Cleared, isEmail) == {FirstName, LastName, Email, Password, ConfirmPassword}
  {
  }

  // ----- what react-hook-form does with the schema -----

  /** `trigger(fields)`: the whole schema runs, and the answer is whether
      none of `fields` has an error. `None` is `trigger(undefined)`, which
      asks about every field. */
  predicate Trigger(fields: Option<set<Field>>, v: FormValues, isEmail: string -> bool) {
    match fields
    case None => Accepts(v, isEmail)
    case Some(fs) => fs !! Errors(v, isEmail)
  }

  /** Naming every field is the same as naming none; naming an empty list
      always passes. */
  lemma {:induction false} TriggerExtremes(v: FormValues, isEmail: string -> bool)
    ensures Trigger(Some(AllFields), v, isEmail) == Trigger(None, v, isEmail)
    ensures Trigger(Some({}), v, isEmail)
  {
    if !Accepts(v, isEmail) {
      var f :| f in Errors(v, isEmail);
      assert f in AllFields;
    }
  }

  /** The values after `handleSubmit(processForm)()`: an accepted form is
      handed to `processForm`, which calls `reset()`; a rejected one is
      left as it is. */
  function AfterSubmit(v: FormValues, isEmail: string -> bool): (r: FormValues)
    ensures Accepts(v, isEmail) ==> r == Cleared
    ensures !Accepts(v, isEmail) ==> r == v
  {
    if Accepts(v, isEmail) then Cleared else v
  }

  /** Submitting twice sends nothing the second time. */
  lemma SecondSubmitIsRejected(v: FormValues, isEmail: string -> bool)
    ensures !Accepts(AfterSubmit(AfterSubmit(v, isEmail), isEmail), isEmail)
  {
    ClearedIsRejected(isEmail);
    assert FirstName in Errors(Cleared, isEmail);
  }
}

=== FILE: signup_volunteer.dfy ===
/** `POST /api/signup/volunteer`: refuse an e-mail that is already
    registered (422), otherwise store a volunteer with a bcrypt-hashed
    password and a random hex verify token (201). */
module SignupVolunteer {
  import opened Base
  import opened Geo
  import V = VolunteerSchema
  import opened Db

  /** The bcrypt cost factor, `bcrypt.hash(password, 12)`. */
  const SaltRounds: nat := 12
  /** `crypto.randomBytes(32)`. */
  const TokenBytes: nat := 32

  /** The JSON body. The route validates nothing; a password that is
      absent (or not a string) is `None`, and `bcrypt.hash` rejects it. */
  datatype SignupRequest = SignupRequest(email: string, password: Option<string>, username: string, location: GeoPoint)

  /** 201 `User created`, 422 `User already exists`, or the 500 Next.js
      answers when `save()` throws (the handler has no `catch`). */
  datatype SignupResponse = Created | AlreadyExists | ServerError

  // ----- `buffer.toString('hex')` -----

  /** A lower-case hexadecimal digit. */
  predicate IsHexDigit(c: char) {
    '0' <= c <= '9' || 'a' <= c <= 'f'
  }

  function HexDigit(n: nat): (c: char)
    requires n < 16
    ensures IsHexDigit(c)
  {
    if n < 10 then ('0' as int + n) as char else ('a' as int + n - 10) as char
  }

  /** The value of a lower-case hex digit. */
  function DigitValue(c: char): (r: Option<nat>)
    ensures r.Some? <==> IsHexDigit(c)
    ensures r.Some? ==> r.value < 16
  {
    if '0' <= c <= '9' then Some(c as nat - '0' as nat)
    else if 'a' <= c <= 'f' then Some(c as nat - 'a' as nat + 10)
    else None
  }

  /** Two lower-case hex digits per byte, high nibble first. */
  function Hex(bytes: seq<Byte>): (s: string)
    ensures |s| == 2 * |bytes|
  {
    if bytes == [] then []
    else [HexDigit(bytes[0] as nat / 16), HexDigit(bytes[0] as nat % 16)] + Hex(bytes[1..])
  }

  /** The inverse of `Hex`: `Buffer.from(s, 'hex')` on well-formed input. */
  function Unhex(s: string): Option<seq<Byte>> {
    if s == [] then Some([])
    else if |s| < 2 || DigitValue(s[0]).None? || DigitValue(s[1]).None? then None
    else match Unhex(s[2..])
      case None => None
      case Some(rest) => Some([(DigitValue(s[0]).value * 16 + DigitValue(s[1]).value) as Byte] + rest)
  }

  lemma DigitValueOfHexDigit(n: nat)
    requires n < 16
    ensures DigitValue(HexDigit(n)) == Some(n)
  {
  }

  /** Decoding two digits in front of a decodable string. */
  lemma UnhexCons(hi: nat, lo: nat, rest: string)
    requires hi < 16 && lo < 16
    requires Unhex(rest).Some?
    ensures Unhex([HexDigit(hi), HexDigit(lo)] + rest) == Some([(hi * 16 + lo) as Byte] + Unhex(rest).value)
  {
    DigitValueOfHexDigit(hi);
    DigitValueOfHexDigit(lo);
    assert ([HexDigit(hi), HexDigit(lo)] + rest)[2..] == rest;
  }

  /** A byte is its high nibble times 16 plus its low nibble. */
  lemma ByteFromNibbles(b: Byte)
    ensures 0 <= b as int / 16 < 16 && 0 <= b as int % 16 < 16
    ensures (b as int / 16 * 16 + b as int % 16) as Byte == b
  {
  }

  /** The token is an encoding: decoding it gives back the random bytes. */
  lemma {:induction false} HexRoundTrip(bytes: seq<Byte>)
    ensures Unhex(Hex(bytes)) == Some(bytes)
  {
    if bytes != [] {
      var hi, lo := bytes[0] as nat / 16, bytes[0] as nat % 16;
      var rest := Hex(bytes[1..]);
      ByteFromNibbles(bytes[0]);
      HexRoundTrip(bytes[1..]);
      UnhexCons(hi, lo, rest);
      assert Hex(bytes) == [HexDigit(hi), HexDigit(lo)] + rest;
      assert bytes == [bytes[0]] + bytes[1..];
    }
  }

  /** Every character of an encoding is a lower-case hex digit. */
  lemma {:induction false} HexIsDigits(bytes: seq<Byte>)
    ensures forall i :: 0 <= i < |Hex(bytes)| ==> IsHexDigit(Hex(bytes)[i])
  {
    if bytes != [] {
      HexIsDigits(bytes[1..]);
      var s := Hex(bytes);
      assert s == [s[0], s[1]] + Hex(bytes[1..]);
      forall i | 2 <= i < |s| ensures IsHexDigit(s[i]) {
        assert s[i] == Hex(bytes[1..])[i - 2];
      }
    }
  }

  /** The verify token is 64 lower-case hex digits. */
  lemma TokenShape(random: seq<Byte>)
    requires |random| == TokenBytes
    ensures |Hex(random)| == 64
    ensures forall i :: 0 <= i < 64 ==> IsHexDigit(Hex(random)[i])
  {
    HexIsDigits(random);
  }

  // ----- the route -----

  /** Volunteers are looked up by e-mail exactly as given: no trimming and
      no case folding. */
  predicate Registered(vols: seq<V.Volunteer>, email: string) {
    exists v :: v in vols && v.email == email
  }

  /** No two volunteers share an e-mail. The collection has no unique
      index; only the route's check keeps this. */
  predicate UniqueEmails(vols: seq<V.Volunteer>) {
    forall i, j :: 0 <= i < j < |vols| ==> vols[i].email != vols[j].email
  }

  /** The document the route builds: the bcrypt hash of the password, the
      hex token, and the schema defaults. */
  function NewVolunteer(req: SignupRequest, hash: (string, nat) -> string, random: seq<Byte>, id: Id): (v: V.Volunteer)
    requires req.password.Some?
    ensures v.id == id && v.email == req.email && v.username == req.username && v.location == req.location
    ensures v.password == hash(req.password.value, SaltRounds)
    ensures Unhex(v.verifyToken) == Some(random)
    ensures !v.verified && v.liveAccidents == [] && v.solvedAccidents == [] && v.unsolvedAccidents == []
  {
    HexRoundTrip(random);
    V.Create(id, req.username, req.email, hash(req.password.value, SaltRounds), req.location, Hex(random))
  }

  /** The route. `hash` stands for bcrypt, `random` for the 32 bytes
      `crypto.randomBytes` returns, `id` for the new ObjectId. */
  method Post(db: Database, req: SignupRequest, hash: (string, nat) -> string, random: seq<Byte>, id: Id)
    returns (resp: SignupResponse)
    requires db.Valid()
    requires |random| == TokenBytes
    requires id !in db.VolunteerIds()
    modifies db
    ensures db.Valid()
    ensures db.accidents == old(db.accidents) && db.hospitals == old(db.hospitals)
    ensures Registered(old(db.volunteers), req.email) ==> resp == AlreadyExists && unchanged(db)
    ensures !Registered(old(db.volunteers), req.email) && req.password.None? ==>
      resp == ServerError && unchanged(db)
    ensures !Registered(old(db.volunteers), req.email) && req.password.Some? ==>
      var doc := NewVolunteer(req, hash, random, id);
      && (V.IndexedAccepts(doc) ==>
            resp == Created && db.volunteers == old(db.volunteers) + [doc]
            && db.writes == old(db.writes) + [InsertVolunteer(id)])
      && (!V.IndexedAccepts(doc) ==> resp == ServerError && unchanged(db))
    ensures UniqueEmails(old(db.volunteers)) ==> UniqueEmails(db.volunteers)
    ensures resp == Created <==> |db.volunteers| == |old(db.volunteers)| + 1
  {
    if exists v :: v in db.volunteers && v.email == req.email {
      return AlreadyExists;
    }
    if req.password.None? {
      return ServerError;
    }
    var doc := NewVolunteer(req, hash, random, id);
    if !V.IndexedAccepts(doc) {
      return ServerError;
    }
    assert doc.id !in db.VolunteerIds();
    db.volunteers := db.volunteers + [doc];
    db.writes := db.writes + [InsertVolunteer(id)];
    resp := Created;
  }
}

=== FILE: signup_wizard.dfy ===
/** The volunteer signup page: a four-step wizard whose `next` validates
    the current step's fields, skips the address check when the current
    location is used, and submits at the last step. */
module SignupWizard {
  import opened Base
  import opened SignupSchema

  /** `steps.length - 1`. */
  const LastStep: nat := 3

  /** `steps[i].fields`; the confirmation step has none. */
  const StepFields: seq<Option<set<Field>>> := [
    Some({FirstName, LastName, Email}),
    Some({Country, State, City, Street, Zip}),
    Some({Password, ConfirmPassword}),
    None
  ]

  /** `steps[i].fields || []`: the fields `next` validates at step `i`. */
  function FieldsAt(i: nat): (fs: set<Field>)
    requires i <= LastStep
    ensures StepFields[i].Some? ==> fs == StepFields[i].value
    ensures StepFields[i].None? ==> fs == {}
  {
    match StepFields[i]
    case Some(fs) => fs
    case None => {}
  }

  /** The three steps with fields together check the whole schema: a form
      that passes them all is accepted, and an accepted form passes each. */
  lemma {:induction false} StepsCoverSchema(v: FormValues, isEmail: string -> bool)
    ensures Accepts(v, isEmail) <==>
      forall i :: 0 <= i < LastStep ==> Trigger(Some(FieldsAt(i)), v, isEmail)
  {
    if !Accepts(v, isEmail) {
      var f :| f in Errors(v, isEmail);
      assert f in FieldsAt(0) || f in FieldsAt(1) || f in FieldsAt(2);
    }
  }

  /** The page's state: the two step counters, the location checkbox, and
      the values react-hook-form holds for it. */
  class SignupForm {
    var currentStep: nat
    var previousStep: nat
    var useCurrentLocation: bool
    var values: FormValues

    /** Both counters are step indexes, and they differ by at most one:
        every move goes to a neighbouring step. */
    ghost predicate Valid()
      reads this
    {
      currentStep <= LastStep && previousStep <= LastStep
      && currentStep <= previousStep + 1 && previousStep <= currentStep + 1
    }

    constructor ()
      ensures Valid()
      ensures currentStep == 0 && previousStep == 0 && !useCurrentLocation && values == Cleared
    {
      currentStep, previousStep, useCurrentLocation, values := 0, 0, false, Cleared;
    }

    /** Typing into the registered inputs. */
    method Input(v: FormValues)
      requires Valid()
      modifies this
      ensures Valid()
      ensures values == v
      ensures currentStep == old(currentStep) && previousStep == old(previousStep)
      ensures useCurrentLocation == old(useCurrentLocation)
    {
      values := v;
    }

    /** The horizontal offset a step's panel enters from: from the right
        only after a move forward. */
    function EntryOffset(): (x: string)
      reads this
      ensures x == "50%" <==> previousStep < currentStep
      ensures x == "50%" || x == "-50%"
    {
      if previousStep < currentStep then "50%" else "-50%"
    }

    /** `next`. Returns whether `processForm` ran. */
    method Next(isEmail: string -> bool) returns (submitted: bool)
      requires Valid()
      modifies this
      ensures Valid()
      ensures useCurrentLocation == old(useCurrentLocation)
      ensures old(currentStep) == 1 && old(useCurrentLocation) ==>
        currentStep == 2 && previousStep == 1 && values == old(values) && !submitted
      ensures !(old(currentStep) == 1 && old(useCurrentLocation)) ==>
        var passed := Trigger(Some(FieldsAt(old(currentStep))), old(values), isEmail);
        && (!passed ==>
              currentStep == old(currentStep) && previousStep == old(previousStep)
              && values == old(values) && !submitted)
        && (passed && old(currentStep) < LastStep ==>
              currentStep == old(currentStep) + 1 && previousStep == old(currentStep)
              && values == old(values) && !submitted)
        && (passed && old(currentStep) == LastStep ==>
              currentStep == LastStep && previousStep == old(previousStep)
              && submitted == Accepts(old(values), isEmail)
              && values == AfterSubmit(old(values), isEmail))
      ensures currentStep == old(currentStep) + 1 ==> EntryOffset() == "50%"
    {
      if currentStep == 1 && useCurrentLocation {
        previousStep := currentStep;
        currentStep := currentStep + 1;
        return false;
      }
      var fields := FieldsAt(currentStep);
      var output := Trigger(Some(fields), values, isEmail);
      if !output {
        return false;
      }
      if currentStep < LastStep {
        previousStep := currentStep;
        currentStep := currentStep + 1;
        submitted := false;
      } else {
        submitted := Accepts(values, isEmail);
        values := AfterSubmit(values, isEmail);
      }
    }

    /** `prev`. */
    method Prev()
      requires Valid()
      modifies this
      ensures Valid()
      ensures old(currentStep) == 0 ==> currentStep == 0 && previousStep == old(previousStep)
      ensures old(currentStep) > 0 ==> currentStep == old(currentStep) - 1 && previousStep == old(currentStep)
      ensures values == old(values) && useCurrentLocation == old(useCurrentLocation)
      ensures old(currentStep) > 0 ==> EntryOffset() == "-50%"
    {
      if currentStep > 0 {
        previousStep := currentStep;
        currentStep := currentStep - 1;
      }
    }

    /** The location checkbox's `onCheckedChange`. Returns whether a
        position is requested from the browser. */
    method SetUseCurrentLocation(value: bool) returns (requestPosition: bool)
      requires Valid()
      modifies this
      ensures Valid()
      ensures useCurrentLocation == value && requestPosition == value
      ensures currentStep == old(currentStep) && previousStep == old(previousStep) && values == old(values)
    {
      useCurrentLocation := value;
      requestPosition := value;
    }
  }
}

=== FILE: upload_files.dfy ===
/** `POST /api/uploadFiles`: every value posted under the form key `file`
    goes to Cloudinary, videos as videos and everything else as images, and
    the answer is their URLs in the order they were posted. */
module UploadFiles {
  import opened Base

  /** A browser `File`. */
  datatype File = File(name: string, mimeType: string, content: seq<Byte>)

  /** A `FormData` value: a file, or a plain string. */
  datatype FormValue = FileValue(file: File) | TextValue(text: string)

  datatype FormEntry = FormEntry(key: string, value: FormValue)

  const FileKey: string := "file"
  const Folder: string := "accidents"

  /** Cloudinary's `resource_type`. */
  datatype ResourceType = Image | Video

  /** The body of the answer: `{ urls }`, or the 500 `Failed to upload
      files`. */
  datatype UploadResponse = UploadOk(urls: seq<string>) | UploadFailed

  /** `formData.getAll('file')`: the values under `file`, in the order they
      were appended. */
  function GetAll(entries: seq<FormEntry>, key: string): (vs: seq<FormValue>)
    ensures |vs| <= |entries|
    ensures forall v :: v in vs <==> exists e :: e in entries && e.key == key && e.value == v
  {
    if entries == [] then []
    else (if entries[0].key == key then [entries[0].value] else []) + GetAll(entries[1..], key)
  }

  lemma {:induction false} GetAllConcat(xs: seq<FormEntry>, ys: seq<FormEntry>, key: string)
    ensures GetAll(xs + ys, key) == GetAll(xs, key) + GetAll(ys, key)
  {
    if xs != [] {
      assert (xs + ys)[1..] == xs[1..] + ys;
      GetAllConcat(xs[1..], ys, key);
    } else {
      assert xs + ys == ys;
    }
  }

  /** The route's `parseFormData`. */
  function ParseFormData(entries: seq<FormEntry>): (vs: seq<FormValue>)
    ensures forall v :: v in vs <==> exists e :: e in entries && e.key == FileKey && e.value == v
  {
    GetAll(entries, FileKey)
  }

  /** Only a MIME type beginning with `video/` makes a video; every other
      file, one with an empty type included, is an image. */
  function ResourceTypeOf(f: File): (t: ResourceType)
    ensures t == Video <==> |f.mimeType| >= 6 && f.mimeType[..6] == "video/"
  {
    if StartsWith(f.mimeType, "video/") then Video else Image
  }

  lemma UntypedFileIsImage(name: string, content: seq<Byte>)
    ensures ResourceTypeOf(File(name, "", content)) == Image
  {
  }

  /** The uploads of `files.map(uploadFile)` gathered by `Promise.all`.
      `upload` stands for Cloudinary's `upload_stream`: the `secure_url` it
      returns, or `None` for an error or a result without one. A string
      posted under `file` has no `arrayBuffer`, so it fails too. The result
      is one URL per value, in order, or nothing at all. */
  function UploadAll(vs: seq<FormValue>, upload: (File, ResourceType, string) -> Option<string>)
    : (r: Option<seq<string>>)
    ensures r.Some? <==> forall i :: 0 <= i < |vs| ==>
      vs[i].FileValue? && upload(vs[i].file, ResourceTypeOf(vs[i].file), Folder).Some?
    ensures r.Some? ==> |r.value| == |vs|
    ensures r.Some? ==> forall i :: 0 <= i < |vs| ==>
      vs[i].FileValue? && upload(vs[i].file, ResourceTypeOf(vs[i].file), Folder) == Some(r.value[i])
  {
    if vs == [] then Some([])
    else match vs[0]
      case TextValue(_) => None
      case FileValue(f) =>
        match (upload(f, ResourceTypeOf(f), Folder), UploadAll(vs[1..], upload))
        case (Some(url), Some(rest)) => Some([url] + rest)
        case _ => None
  }

  /** The route: parse, upload each file, answer with the URLs; any failure
      is the 500 answer, which carries no URLs. */
  function Post(entries: seq<FormEntry>, upload: (File, ResourceType, string) -> Option<string>)
    : (r: UploadResponse)
    ensures r.UploadOk? <==> UploadAll(ParseFormData(entries), upload).Some?
    ensures r.UploadOk? ==> |r.urls| == |ParseFormData(entries)|
    ensures r.UploadOk? ==> forall i :: 0 <= i < |r.urls| ==>
      ParseFormData(entries)[i].FileValue?
      && upload(ParseFormData(entries)[i].file, ResourceTypeOf(ParseFormData(entries)[i].file), Folder) == Some(r.urls[i])
  {
    match UploadAll(ParseFormData(entries), upload)
    case Some(urls) => UploadOk(urls)
    case None => UploadFailed
  }
}

=== FILE: volunteer.dfy ===
/** The Volunteer document: the zod schema for a volunteer and what the
    Mongoose schema requires and fills in when one is saved. */
module VolunteerSchema {
  import opened Base
  import opened Geo

  /** The shortest password the zod schema accepts. */
  const MinPasswordLength: nat := 6

  /** The raw value handed to `volunteerSchemaZod`. */
  datatype VolunteerInput = VolunteerInput(
    username: string,
    email: string,
    password: string,
    verifyToken: string,
    verified: Option<bool>,
    location: GeoPoint,
    liveAccidents: Option<seq<Id>>,
    solvedAccidents: Option<seq<Id>>,
    unsolvedAccidents: Option<seq<Id>>)

  /** The issues zod reports, one per failing check. */
  datatype Issue =
    | UsernameRequired
    | InvalidEmail
    | PasswordTooShort
    | VerifyTokenRequired
    | LocationNotPoint
    | NotTwoCoordinates

  /** The issues of `volunteerSchemaZod`; `isEmail` stands for zod's e-mail
      pattern. The `min` checks count UTF-16 code units, as JavaScript's
      `length` does. */
  function ZodIssues(v: VolunteerInput, isEmail: string -> bool): (r: set<Issue>)
    ensures UsernameRequired in r <==> Utf16Length(v.username) < 1
    ensures InvalidEmail in r <==> !isEmail(v.email)
    ensures PasswordTooShort in r <==> Utf16Length(v.password) < MinPasswordLength
    ensures VerifyTokenRequired in r <==> Utf16Length(v.verifyToken) < 1
    ensures LocationNotPoint in r <==> v.location.kind != "Point"
    ensures NotTwoCoordinates in r <==> |v.location.coordinates| != 2
  {
    (if Utf16Length(v.username) < 1 then {UsernameRequired} else {})
    + (if !isEmail(v.email) then {InvalidEmail} else {})
    + (if Utf16Length(v.password) < MinPasswordLength then {PasswordTooShort} else {})
    + (if Utf16Length(v.verifyToken) < 1 then {VerifyTokenRequired} else {})
    + (if v.location.kind != "Point" then {LocationNotPoint} else {})
    + (if |v.location.coordinates| != 2 then {NotTwoCoordinates} else {})
  }

  /** `volunteerSchemaZod.safeParse`: accepts exactly the inputs with a
      non-empty username and verify token, an e-mail-shaped address, a
      password of six UTF-16 code units or more and a two-coordinate Point; an
      absent `verified` becomes `false`; the accident lists stay optional. */
  function ParseInput(v: VolunteerInput, isEmail: string -> bool): (r: Result<VolunteerInput, set<Issue>>)
    ensures r.Ok? <==> (v.username != "" && isEmail(v.email) && Utf16Length(v.password) >= MinPasswordLength
                        && v.verifyToken != "" && IsPoint(v.location))
    ensures r.Ok? ==> r.value.verified == Some(v.verified.Some? && v.verified.value)
    ensures r.Ok? ==> r.value.(verified := v.verified) == v
    ensures r.Err? ==> r.error != {}
  {
    var issues := ZodIssues(v, isEmail);
    if issues != {} then Err(issues)
    else Ok(v.(verified := Some(v.verified.Some? && v.verified.value)))
  }

  /** Three emoji are six code units, so zod takes them as a password
      although they are only three characters. */
  lemma ThreeEmojiPasswordIsLongEnough(v: VolunteerInput, isEmail: string -> bool)
    requires v.password == "\U{1F600}\U{1F600}\U{1F600}"
    ensures |v.password| == 3
    ensures PasswordTooShort !in ZodIssues(v, isEmail)
  {
    ThreeEmojiAreSixUnits();
  }

  /** A saved Volunteer document. */
  datatype Volunteer = Volunteer(
    id: Id,
    username: string,
    email: string,
    password: string,
    verifyToken: string,
    verified: bool,
    location: GeoPoint,
    liveAccidents: seq<Id>,
    solvedAccidents: seq<Id>,
    unsolvedAccidents: seq<Id>)

  /** `new Volunteer({...})` from the five fields the signup route passes:
      Mongoose fills `verified` with `false` and each accident list with
      `[]`. */
  function Create(id: Id, username: string, email: string, password: string,
                  location: GeoPoint, verifyToken: string): (v: Volunteer)
    ensures v.id == id && v.username == username && v.email == email && v.password == password
    ensures v.location == location && v.verifyToken == verifyToken
    ensures !v.verified && v.liveAccidents == [] && v.solvedAccidents == [] && v.unsolvedAccidents == []
  {
    Volunteer(id, username, email, password, verifyToken, false, location, [], [], [])
  }

  /** What `save()` lets through: the required strings are non-empty (a
      Mongoose required string rejects `''`) and the location type is the
      enum value `'Point'`. */
  predicate StoredAccepts(v: Volunteer) {
    v.username != "" && v.email != "" && v.password != "" && v.verifyToken != ""
    && v.location.kind == "Point"
  }

  /** What `save()` lets through once the volunteer collection has the
      2dsphere index on `location` that `$near` needs: the schema's checks,
      and a location the index takes. */
  predicate IndexedAccepts(v: Volunteer) {
    StoredAccepts(v) && IsIndexable(v.location)
  }

  /** The document as zod would see it. */
  function AsInput(v: Volunteer): VolunteerInput {
    VolunteerInput(v.username, v.email, v.password, v.verifyToken, Some(v.verified),
                   v.location, Some(v.liveAccidents), Some(v.solvedAccidents), Some(v.unsolvedAccidents))
  }

  /** A freshly created volunteer with a usable username, address, password
      and location passes the zod schema, with `verified` still `false`. */
  lemma CreatedPassesSchema(id: Id, username: string, email: string, password: string,
                            location: GeoPoint, verifyToken: string, isEmail: string -> bool)
    requires username != "" && isEmail(email) && Utf16Length(password) >= MinPasswordLength
    requires verifyToken != "" && IsPoint(location)
    ensures ParseInput(AsInput(Create(id, username, email, password, location, verifyToken)), isEmail).Ok?
    ensures ParseInput(AsInput(Create(id, username, email, password, location, verifyToken)), isEmail).value.verified == Some(false)
  {
  }
}
